=== FILE: README.md ===
# gcode-viewer: the G-code parser and the preview's line bookkeeping, in Dafny

This project models two parts of the gcode-viewer package.

**`GCodeParser`.** It turns raw G-code lines into polyline segments and arc
descriptors:

- `makeLineReadable` rewrites a line so that every recognised letter starts a
  `;`-separated field.
- `parseLine` reads the fields and classifies the line.
- `parse` folds the lines of one call over a persistent `ParseState`. It opens
  or extends line segments, emits arcs with their centre resolved by
  `calculateArcCenter`, and counts emitted entities.
- `clear` resets the state.

**`PreviewLines` bookkeeping.** This is the consumer of the parser's indices.
It keeps one map entry per drawn line or arc, each drawn line mapped to the
parser's index, and hangs each line in the main group or the travel group. It
shows or hides entries against a cursor (`updateVisibleLines`), and it computes
the radius of an arc. The Three.js scene graph is erased.

Files, each one module:

| file | module | contents |
|---|---|---|
| `text.dfy` | `Text` | JavaScript `trim` and one-character `split` |
| `jsnumber.dfy` | `JsNumber` | NaN-or-real numbers, `===`, `<=`, `+`, and a prefix `parseFloat` |
| `types.dfy` | `Types` | the records of `types.ts` and the classification vocabulary |
| `tokenizer.dfy` | `Tokenizer` | `makeLineReadable`, field reading, classification, `parseLine` |
| `interpreter.dfy` | `Interpreter` | `ParseState`, `clear`, the per-line step, `parse` and its accounting |
| `preview.dfy` | `Preview` | the `PreviewLines` entry map, routing, visibility, arc radius |
| `scenarios.dfy` | `Scenarios` | worked examples of `parse` and the no-motion-code rule |

Numbers are `NaN` or an exact real. The parser only compares numbers with the
literals 0, 1, 2, 3, 5 and -1, and adds once for the arc centre.
`JsNumber.StrictEq`, `JsNumber.LessEq`, `JsNumber.Add`, `JsNumber.Sub` and
`JsNumber.Mul` model JavaScript `===`, `<=`, `+`, `-` and `*` on such numbers:
a comparison is false and an operation gives NaN as soon as either operand is
NaN. Because `===` is false whenever NaN is involved, an `M` word with no
digits (M = NaN) counts as "not -1" and forces `Tool`.

`Tokenizer.Reassign` models one iteration of the loop over the G values: the
`if (g === k)` tests against 0, 1, 2 and 3. What the whole loop decides is
stated by `Tokenizer.MotionLast` and `Tokenizer.MotionNone`.

## Model

| member | source | states |
|---|---|---|
| Text.Trim | package/gcode-viewer/src/GCodeParser.ts:164 | The trimmed line is an infix of the line. Only white space is dropped on either side, and the result neither starts nor ends with white space. |
| Text.TrimUntouched | package/gcode-viewer/src/GCodeParser.ts:164 | A line with no white space at either end is its own trim. |
| Text.TrimStartSkips | package/gcode-viewer/src/GCodeParser.ts:124 | Dropping leading white space ignores any white-space prefix. |
| Text.Split | package/gcode-viewer/src/GCodeParser.ts:118 | `split(';')` yields at least one part. No part contains `;`, and joining the parts with `;` gives the input back. |
| Text.SplitJoin | package/gcode-viewer/src/GCodeParser.ts:118 | Splitting inverts joining for parts free of the separator. |
| JsNumber.NaNNeverStrictEq | package/gcode-viewer/src/GCodeParser.ts:139-158 | `===` with NaN on either side is false for every other operand, NaN itself included. |
| JsNumber.ParseFloat | package/gcode-viewer/src/GCodeParser.ts:124 | `parseFloat` is NaN exactly when the text after white space and sign starts neither with a digit nor with a point followed by a digit. A negative result needs a `-` sign. |
| JsNumber.ParseFloatFormatInt | package/gcode-viewer/src/GCodeParser.ts:124 | `parseFloat` reads back the decimal notation of every integer, whatever non-numeric text follows. |
| JsNumber.ParseFloatDecimal | package/gcode-viewer/src/GCodeParser.ts:124 | `parseFloat` reads a signed decimal literal `w.d` (as in `10.5`, `.5` or `5.`) as w + d / 10^len(d), whatever non-digit text follows. |
| JsNumber.ParseFloatSkipsSpace | package/gcode-viewer/src/GCodeParser.ts:124 | Leading white space never changes what `parseFloat` reads. |
| Tokenizer.ReplaceLetter | package/gcode-viewer/src/GCodeParser.ts:165 | One `replace(/l/gi, ";L")` for an upper-case letter L other than `;` can be undone up to case. Removing every `;` that stands right before an L gives back the input with each l upper-cased. The output is empty exactly when the input is, and it starts with `;` exactly when the input starts with l or L. |
| Tokenizer.ReplaceEach | package/gcode-viewer/src/GCodeParser.ts:165-173 | The chain of case-insensitive `replace` calls, run in order, equals one per-character rewriting. This holds whenever every letter is upper-case, not `;`, and not repeated later in the chain. |
| Tokenizer.MakeLineReadable | package/gcode-viewer/src/GCodeParser.ts:163-179 | Computes the readable line: trim, then `;` and the upper-case letter before each g, x, y, m, f, s, i, j or r of either case, then one leading `;` dropped. It has no contract of its own; `Tokenizer.ReplaceChainAgrees` shows it equals the literal chain. |
| Tokenizer.ReplaceChainAgrees | package/gcode-viewer/src/GCodeParser.ts:163-179 | `makeLineReadable`, as trim, the nine `replace` calls in source order and dropping one leading `;`, equals the per-character model. |
| Tokenizer.ExpandAllLeads | package/gcode-viewer/src/GCodeParser.ts:165-173 | In a line without `;`, every `;` inserted by the rewriting is followed by an upper-case separator letter. |
| Tokenizer.ReadableFront | package/gcode-viewer/src/GCodeParser.ts:163-179 | With no `;` in the trimmed line, the readable line starts with the line's first character. That character is upper-cased if it is a separator letter, and the leading `;` is gone. |
| Tokenizer.FieldsRoundTrip | package/gcode-viewer/src/GCodeParser.ts:117-118 | A line written as upper-case fields with no trailing white space splits back into exactly those fields. |
| Tokenizer.Store | package/gcode-viewer/src/GCodeParser.ts:126-134 | A G value is appended to the G values. A value for M, X, Y, Z, I, J, F or S overwrites that field and no other. Any other letter changes nothing, and the type and movement are never touched. |
| Tokenizer.ReadPart | package/gcode-viewer/src/GCodeParser.ts:121-134 | A part's first character picks the slot, and the `parseFloat` of the rest is stored there. An empty part matches no letter and changes nothing. |
| Tokenizer.ReadParts | package/gcode-viewer/src/GCodeParser.ts:120-135 | Reading the parts in order appends every G part's value, in order, to the G values already held. It leaves the type and movement alone. |
| Tokenizer.LastFieldWins | package/gcode-viewer/src/GCodeParser.ts:120-135 | M, X, Y, Z, I, J, F and S each hold the `parseFloat` of the last part that starts with their letter. |
| Tokenizer.AbsentFieldKept | package/gcode-viewer/src/GCodeParser.ts:120-135 | A single-number field that no part names keeps its initial value. |
| Tokenizer.Motion | package/gcode-viewer/src/GCodeParser.ts:105-106 | The loop over the G values yields Modal exactly when it yields no movement. |
| Tokenizer.MotionLast | package/gcode-viewer/src/GCodeParser.ts:137-155 | The last G value in {0, 1, 2, 3} decides the motion, whatever precedes it. |
| Tokenizer.MotionNone | package/gcode-viewer/src/GCodeParser.ts:103-106 | Without such a value the line stays Modal with no movement. |
| Tokenizer.Classify | package/gcode-viewer/src/GCodeParser.ts:137-158 | The movement is the G values' movement. If M, F or S is not -1 the type is Tool, M = 5 forces Travel, and a moving line is never Modal. |
| Tokenizer.ParseLine | package/gcode-viewer/src/GCodeParser.ts:102-161 | The G values are those of the readable line's parts. The type and movement are the classification of the fields read, and a moving line is never Modal. |
| Tokenizer.ParseLineDefaults | package/gcode-viewer/src/GCodeParser.ts:103-115 | Unnamed X, Y and Z stay at the current position, and unnamed M, S, F, I and J stay -1. |
| Tokenizer.ParseLineField | package/gcode-viewer/src/GCodeParser.ts:117-135 | A named single-number field holds the `parseFloat` of the rest of the last part that names it. |
| Tokenizer.ZOnlyAtFront | package/gcode-viewer/src/GCodeParser.ts:163-179 | Z is not a separator letter, so without a `;` in the line, Z is read only when `Z` opens the trimmed line. |
| Tokenizer.DigitlessMForcesTool | package/gcode-viewer/src/GCodeParser.ts:124-157 | When the last `M` part has no number after it, M reads as NaN, which `!==` -1, so the line's type is Tool. |
| Tokenizer.NoCodeNoMovement | package/gcode-viewer/src/GCodeParser.ts:137-155 | A line with no G value of 0, 1, 2 or 3 does not move. |
| Interpreter.Clear | package/gcode-viewer/src/GCodeParser.ts:33-39 | A fresh parser, and one after `clear`, has its counter back at 1. The next call therefore numbers its lines and arcs from 1 up to the count it reports, and that count is exactly what it emitted. |
| Interpreter.ArcCenter | package/gcode-viewer/src/GCodeParser.ts:181-184 | The centre is the start offset by I and J in x and y, with z = 0. NaN propagates. |
| Interpreter.StepLine | package/gcode-viewer/src/GCodeParser.ts:46-95 | A line with no movement changes nothing. A straight move opening a segment seeds it with the prior position, takes the counter and increments it; otherwise it extends the open segment, earlier segments untouched. Either way it appends (x, y, z) and sets type and position. An arc closes the open segment and is appended with index, direction, start (z kept), resolved centre and end (z = 0); only x and y move, the counter increments. |
| Interpreter.Step | package/gcode-viewer/src/GCodeParser.ts:47-94 | One iteration: the line is read against the current position, then stepped. The open segment, when there is one, stays among the segments emitted. |
| Interpreter.StepLineValid | package/gcode-viewer/src/GCodeParser.ts:49-93 | One step keeps the call's invariant: one index per entity, each counter value since the call began used exactly once, lines and arcs in increasing index order, every segment with at least two points, and an open segment of the state's type ending at the tool position. |
| Interpreter.Run | package/gcode-viewer/src/GCodeParser.ts:46-96 | The loop over one call's lines, in order. The open segment, when there is one, stays among the segments emitted. |
| Interpreter.RunAppend | package/gcode-viewer/src/GCodeParser.ts:46-96 | Within one call the lines are handled strictly in order: the loop over `a + b` is the loop over `a` followed by the loop over `b` from where it stopped. |
| Interpreter.RunValid | package/gcode-viewer/src/GCodeParser.ts:46-96 | The whole loop keeps that invariant. |
| Interpreter.RunKeepsCoordinates | package/gcode-viewer/src/GCodeParser.ts:41-100 | `coordinates` is never assigned by `parse`. |
| Interpreter.Parse | package/gcode-viewer/src/GCodeParser.ts:41-100 | The counter never decreases and `parsed` is it minus 1. Lines plus arcs equal the counter difference; the indices are exactly the counter values used, shared by no line and arc, strictly increasing. Every segment has at least two points; `coordinates` is unchanged. |
| Interpreter.SegmentOpensIff | package/gcode-viewer/src/GCodeParser.ts:55-68 | A straight move opens a segment exactly when none is open in this call or the type differs from the state's. A merged move has the segment's type. |
| Interpreter.RunExtends | package/gcode-viewer/src/GCodeParser.ts:46-96 | Later lines of a call only append. Arcs keep their prefix, and segments keep their index and type, with their points only growing. |
| Interpreter.FirstStraightOpens | package/gcode-viewer/src/GCodeParser.ts:41-59 | The open segment is local to a call. The first straight move of every call opens a segment at the current index, seeded with the current position and then the target. |
| Interpreter.StationaryLinesChangeNothing | package/gcode-viewer/src/GCodeParser.ts:53-94 | Lines with no movement change nothing: no output, no state change, no count. |
| Interpreter.ClearThenEmptyParse | package/gcode-viewer/src/GCodeParser.ts:37-39 | After `clear`, an empty call reports no lines, no arcs and a count of 0, and leaves the state as `clear` set it. |
| Interpreter.ParsedIsCumulative | package/gcode-viewer/src/GCodeParser.ts:98-99 | The count is cumulative across calls. |
| Interpreter.ChunkingSplitsSegments | package/gcode-viewer/src/GCodeParser.ts:41-66 | Two same-type straight moves form one segment in one call, but two segments when fed to two calls. |
| Preview.NewPreviewLines | package/gcode-viewer/src/PreviewLines.ts:15-25 | The map starts empty. `showTravel` defaults to true, and the travel group starts with that visibility. |
| Preview.ClearElements | package/gcode-viewer/src/PreviewLines.ts:33-48 | The entry map is emptied. The new travel group's visibility is the current `showTravel`, which is kept. |
| Preview.ClearForgetsUpdate | package/gcode-viewer/src/PreviewLines.ts:33-48 | Clearing after `update` gives the same preview as clearing before it: every drawn entry is forgotten. |
| Preview.ClearKeepsToggle | package/gcode-viewer/src/PreviewLines.ts:45-46 | The travel group created by `clearElements` takes the last toggled setting, whatever the visibility of the group it replaces. |
| Preview.ToggleTravelVisibility | package/gcode-viewer/src/PreviewLines.ts:58-61 | No entry changes. The setting and the travel group's visibility both become the argument. |
| Preview.ToggleAffectsOnlyTravel | package/gcode-viewer/src/PreviewLines.ts:58-61 | The toggle hides or shows exactly the travel lines that are visible on their own. Main-group lines are drawn as before. |
| Preview.Refresh | package/gcode-viewer/src/PreviewLines.ts:68-79 | Indices and groups are kept. An entry with index 0 keeps its flag; any other is visible exactly when its index is at most the cursor (never, for a NaN cursor). |
| Preview.UpdateVisibleLines | package/gcode-viewer/src/PreviewLines.ts:63-80 | Only visibility flags change. A truthy-indexed entry is visible exactly when its index is at most the cursor. The cursor is the given one, or else the entry count. |
| Preview.DefaultCursorIsEntryCount | package/gcode-viewer/src/PreviewLines.ts:64-66 | The default cursor is the number of entries, not the largest index, so an entry whose index is above it is hidden. |
| Preview.NaNCursorHidesAll | package/gcode-viewer/src/PreviewLines.ts:74-78 | A NaN cursor hides every entry with a truthy index. |
| Preview.Grow | package/gcode-viewer/src/PreviewLines.ts:84-127 | Exactly one entry is added per segment, then one per arc, after the old entries. Each carries its segment's index and group. |
| Preview.Update | package/gcode-viewer/src/PreviewLines.ts:82-130 | One entry is added per segment and per arc, and old entries keep their index and group. After the default-cursor refresh, a truthy-indexed entry is visible exactly when its index is at most the new entry count. |
| Preview.UpdateRoutesSegment | package/gcode-viewer/src/PreviewLines.ts:95-101 | The entry for a segment carries its index and is in the travel group exactly when the segment is a travel segment. |
| Preview.UpdateRoutesArc | package/gcode-viewer/src/PreviewLines.ts:124-126 | The entry for an arc carries its index and is in the main group. |
| Preview.FreshSessionAllVisible | package/gcode-viewer/src/PreviewLines.ts:82-130 | After clearing both the parser and the preview, drawing one call's output leaves every entry visible. |
| Preview.RadiusSquared | package/gcode-viewer/src/PreviewLines.ts:132-147 | The squared radius is defined exactly when start and centre x, y are numbers, and is then non-negative. The end point plays no part. |
| Preview.RadiusUnique | package/gcode-viewer/src/PreviewLines.ts:147 | At most one non-negative root exists, so the radius is determined by start and centre. |
| Preview.ParsedArcRadius | package/gcode-viewer/src/PreviewLines.ts:144-147 | For an arc the parser emits, radius² = I² + J². |
| Preview.RadiusExample | package/gcode-viewer/src/PreviewLines.ts:144-147 | The arc from (10, 10) around (15, 10) has radius 5. |
| Scenarios.FieldsWithoutCodeDoNotMove | package/gcode-viewer/src/GCodeParser.ts:102-158 | A line of fields none of which is G, M, F or S (say `X20 Y0`) is Modal with no movement, so `parse` drops it. |
| Scenarios.SpindleStopMakesTravel | package/gcode-viewer/src/GCodeParser.ts:157-158 | The fields G = [1] and M = 5 (F and S absent) classify as Travel with a straight movement: M5 overrides the Tool type that G1 and a present M give. |
| Scenarios.CoordinatesOnlyLineIsDropped | package/gcode-viewer/src/GCodeParser.ts:53-75 | A tool move, then a line without movement, gives one two-point segment and a counter of 2. |
| Scenarios.SameTypeMerges | package/gcode-viewer/src/GCodeParser.ts:60-74 | Two tool moves give one segment of three points. |
| Scenarios.TypeChangeSplits | package/gcode-viewer/src/GCodeParser.ts:61-67 | A tool move then a travel move gives two segments, indexed 1 and 2. The second starts where the first ends. |
| Scenarios.ArcFromOffsets | package/gcode-viewer/src/GCodeParser.ts:76-94 | After a tool move to (10, 10, 2), a line classified as a clockwise arc with X20 Y10 I5 J0 emits arc 2 from (10, 10, 2) around (15, 10, 0) to (20, 10, 0). It closes the open segment, leaves the lines as they were and keeps z at 2; the next tool move then opens segment 3 instead of extending segment 1. |

## Behaviour worth knowing

- **Coordinate-only lines.** A line such as `X20 Y0` has no G value of 0 to
  3, so it is Modal with no movement and does not extend the open segment:
  `parse` ignores it. See `Scenarios.FieldsWithoutCodeDoNotMove` and
  `Scenarios.CoordinatesOnlyLineIsDropped`.
- **The letter Z.** `makeLineReadable` has no `replace` for `z`, so a Z value
  is read only when it opens the line or follows a `;` already in the input.
  See `Tokenizer.ZOnlyAtFront`.
- **Splitting the input across calls.** The open segment does not survive a
  `parse` call, so the first straight move of each call opens a new segment,
  and splitting the input across calls changes the segments. See
  `Interpreter.FirstStraightOpens` and `Interpreter.ChunkingSplitsSegments`.
- **The `!== 'Modal'` test.** The test at GCodeParser.ts:62 is always true
  for a moving line, because a moving line is never Modal (`Tokenizer.Classify`).
  The model keeps the test as written in `Interpreter.OpensSegment`.
- **A `;` in the input.** A `;` already in the line separates fields like an
  inserted one. It does not start a comment.

## Left out

- Rendering is not part of this model. That covers the Three.js scene, materials, `BufferGeometry`, `EllipseCurve` sampling, the `disposables` list and `changeColors` (PreviewLines.ts:50-56, 88-96, 112-125). Only which entries exist, their indices, groups and visibility flags are modelled.
- The angles of `getStartAndEndAngles` (`Math.atan2`) are left out: floating-point trigonometry. `Math.sqrt` is replaced by the relation `IsRadius` (a non-negative root of the squared distance).
- PreviewRenderer.ts, PreviewCursor.ts, PreviewHelpers.ts and GCodePreview.tsx are not part of this model. Their chunked, timer-driven feeding of `parse` is UI scheduling.
- Numbers are exact reals or NaN. IEEE rounding, infinities, -0 and 2^53 precision limits are not modelled. The line counter is an unbounded integer.
- JsNumber.ParseFloat: only white space, an optional sign, digits, and an optional point with digits are read. Exponents (`1e3`) and `Infinity` are not recognised, so text using them parses differently from JavaScript.
- Relative coordinates: `coordinates` is recorded but never switched or applied by the code, so no relative arithmetic is modelled.
- Strings are sequences of code points rather than UTF-16 code units. Case folding is ASCII only, which is what a `/x/gi` pattern without the `u` flag does for these letters.
- The `GCodeParser` constructor sets the same state as `clear` and is modelled by `Interpreter.Clear`.
- Tokenizer.MakeLineReadable: it carries no contract of its own, because a postcondition on it would be assumed, with its quantifiers instantiated, wherever `parseLine` reads a line, which makes those proofs much costlier. Its agreement with the `replace` chain is `Tokenizer.ReplaceChainAgrees`, and its shape is stated by `Tokenizer.ExpandAllLeads` and `Tokenizer.ReadableFront`.
- Interpreter.Step: its own contract states only that the open segment stays among those emitted. What a step does is stated by `Interpreter.StepLine`, and the accounting by `Interpreter.StepLineValid`.
- Interpreter.Run: its own contract states only that the open segment stays among those emitted. The accounting is `Interpreter.RunValid`, the append-only growth `Interpreter.RunExtends`, and the order of lines `Interpreter.RunAppend`.
- Tokenizer.Motion: its own contract states only that Modal goes with no movement. The decision table is stated by `Tokenizer.MotionLast` and `Tokenizer.MotionNone`. One iteration of the G loop (GCodeParser.ts:138-154) is `Tokenizer.Reassign`, whose contract is that fixed table and serves only as a step in their proofs.
- Preview.Update: its own contract does not name the group of each new entry. Routing is stated per entry by `Preview.UpdateRoutesSegment` and `Preview.UpdateRoutesArc`.

=== FILE: interpreter.dfy ===
/**
 The stateful half of GCodeParser.ts: `parse` folds the lines of one call
 over the persistent `ParseState`, opening or extending line segments,
 emitting arcs and counting emitted entities.
 */
module Interpreter {

  import opened JsNumber
  import opened Types
  import opened Tokenizer

  datatype Coordinates = Absolute | Relative

  /** The parser's persistent state. `currentLine` is the index the next
      emitted entity gets; `coordinates` is recorded but never consulted. */
  datatype ParseState = ParseState(
    currentLine: int, coordinates: Coordinates, movementType: CommandType,
    x: Num, y: Num, z: Num)

  function Position(st: ParseState): Point {
    Point(st.x, st.y, st.z)
  }

  /** The state of a fresh parser, and of one after `clear`: the counter is
      back at 1, so the next call numbers what it emits from 1 up and
      reports exactly that many. */
  function Clear(): (st: ParseState)
    ensures forall gcode :: var res := Parse(st, gcode).1;
              && res.parsed == |res.lines| + |res.arcs|
              && LineIndices(res.lines) + ArcIndices(res.arcs) == Range(1, res.parsed + 1)
  {
    ParseState(1, Absolute, Travel, Val(0.0), Val(0.0), Val(0.0))
  }

  /** One `parse` call in progress: the persistent state, whether a line
      segment is open (it is then the last of `lines`), and what this call
      has emitted so far. */
  datatype Pass = Pass(state: ParseState, open: bool, lines: seq<LineSegment>, arcs: seq<ArcSegment>)

  /** The open segment, when there is one, is an element of `lines`. */
  predicate Coherent(p: Pass) {
    p.open ==> |p.lines| > 0
  }

  /** A call starts with no open segment and nothing emitted. */
  function Begin(st: ParseState): Pass {
    Pass(st, false, [], [])
  }

  /** `calculateArcCenter`: the I and J offsets are relative to the start. */
  function ArcCenter(start: Point, i: Num, j: Num): (c: Point)
    ensures c.z == Val(0.0)
    ensures start.x.Val? && i.Val? ==> c.x.Val? && c.x.r - start.x.r == i.r
    ensures start.y.Val? && j.Val? ==> c.y.Val? && c.y.r - start.y.r == j.r
    ensures start.x.NaN? || i.NaN? ==> c.x.NaN?
    ensures start.y.NaN? || j.NaN? ==> c.y.NaN?
  {
    Point(Add(start.x, i), Add(start.y, j), Val(0.0))
  }

  /** Whether a straight move of type `kind` starts a new segment. */
  predicate OpensSegment(p: Pass, kind: CommandType) {
    !p.open || (p.state.movementType != kind && kind != Modal)
  }

  function Last<T>(s: seq<T>): T
    requires |s| > 0
  {
    s[|s| - 1]
  }

  /** The body of the loop in `parse`, for one classified line. */
  function StepLine(p: Pass, l: GcodeLine): (q: Pass)
    requires Coherent(p)
    requires l.movement != NoMovement ==> l.kind != Modal
    ensures Coherent(q)
    ensures l.movement == NoMovement ==> q == p
    ensures q.state.coordinates == p.state.coordinates
    ensures l.movement == Straight ==>
              && q.open
              && (|q.lines| == |p.lines| + 1 <==> OpensSegment(p, l.kind))
              && |Last(q.lines).indecies| >= 1
              && Last(Last(q.lines).indecies) == Point(l.x, l.y, l.z)
              && (OpensSegment(p, l.kind) ==>
                    q.lines == p.lines + [LineSegment(p.state.currentLine, l.kind, [Position(p.state), Point(l.x, l.y, l.z)])])
              && (!OpensSegment(p, l.kind) ==>
                    && |q.lines| == |p.lines|
                    && q.lines[..|p.lines| - 1] == p.lines[..|p.lines| - 1]
                    && Last(q.lines).index == Last(p.lines).index
                    && Last(q.lines).lineType == Last(p.lines).lineType
                    && Last(q.lines).indecies == Last(p.lines).indecies + [Point(l.x, l.y, l.z)])
              && Position(q.state) == Point(l.x, l.y, l.z)
              && q.state.movementType == l.kind
              && q.state.currentLine == p.state.currentLine + (if OpensSegment(p, l.kind) then 1 else 0)
              && q.arcs == p.arcs
    ensures l.movement.ArcCW? || l.movement.ArcCC? ==>
              && !q.open
              && q.lines == p.lines
              && |q.arcs| == |p.arcs| + 1 && q.arcs[..|p.arcs|] == p.arcs
              && Last(q.arcs).index == p.state.currentLine
              && Last(q.arcs).direction == (if l.movement.ArcCC? then CC else CW)
              && Last(q.arcs).start == Position(p.state)
              && Last(q.arcs).center == ArcCenter(Position(p.state), l.i, l.j)
              && Last(q.arcs).end == Point(l.x, l.y, Val(0.0))
              && Position(q.state) == Point(l.x, l.y, p.state.z)
              && q.state.movementType == l.kind
              && q.state.currentLine == p.state.currentLine + 1
  {
    var st := p.state;
    match l.movement
    case NoMovement => p
    case Straight =>
      var point := Point(l.x, l.y, l.z);
      var moved := st.(movementType := l.kind, x := l.x, y := l.y, z := l.z);
      if OpensSegment(p, l.kind) then
        var segment := LineSegment(st.currentLine, l.kind, [Position(st), point]);
        Pass(moved.(currentLine := st.currentLine + 1), true, p.lines + [segment], p.arcs)
      else
        var open := Last(p.lines);
        Pass(moved, true, p.lines[..|p.lines| - 1] + [open.(indecies := open.indecies + [point])], p.arcs)
    case _ =>
      var start := Position(st);
      var arc := ArcSegment(
        st.currentLine, if l.movement == ArcCC then CC else CW,
        start, ArcCenter(start, l.i, l.j), Point(l.x, l.y, Val(0.0)));
      Pass(st.(movementType := l.kind, x := l.x, y := l.y, currentLine := st.currentLine + 1),
           false, p.lines, p.arcs + [arc])
  }

  /** One raw line: classify it against the current position, then step. */
  function Step(p: Pass, line: string): (q: Pass)
    requires Coherent(p)
    ensures Coherent(q)
  {
    StepLine(p, ParseLine(Position(p.state), line))
  }

  /** The loop of `parse` over the lines of one call, in order. */
  function Run(p: Pass, gcode: seq<string>): (q: Pass)
    requires Coherent(p)
    ensures Coherent(q)
    decreases |gcode|
  {
    if gcode == [] then p else Run(Step(p, gcode[0]), gcode[1..])
  }

  // ---------------------------------------------------------------------
  // Index accounting and segment shape

  function LineIndices(lines: seq<LineSegment>): set<int> {
    set k | 0 <= k < |lines| :: lines[k].index
  }

  function ArcIndices(arcs: seq<ArcSegment>): set<int> {
    set k | 0 <= k < |arcs| :: arcs[k].index
  }

  /** The counter values from `lo` up to, not including, `hi`. */
  function Range(lo: int, hi: int): (r: set<int>)
    ensures forall k :: k in r <==> lo <= k < hi
    decreases hi - lo
  {
    if lo >= hi then {} else {lo} + Range(lo + 1, hi)
  }

  predicate IncreasingLines(lines: seq<LineSegment>) {
    forall a, b :: 0 <= a < b < |lines| ==> lines[a].index < lines[b].index
  }

  predicate IncreasingArcs(arcs: seq<ArcSegment>) {
    forall a, b :: 0 <= a < b < |arcs| ==> arcs[a].index < arcs[b].index
  }

  /** What one call has emitted since the counter stood at `c0`: one index
      per entity, each counter value used exactly once, every segment with
      at least two points, and an open segment that ends where the tool is
      and has the state's type. */
  ghost predicate Valid(p: Pass, c0: int) {
    var cur := p.state.currentLine;
    && Coherent(p)
    && c0 <= cur
    && |p.lines| + |p.arcs| == cur - c0
    && LineIndices(p.lines) + ArcIndices(p.arcs) == Range(c0, cur)
    && LineIndices(p.lines) !! ArcIndices(p.arcs)
    && IncreasingLines(p.lines)
    && IncreasingArcs(p.arcs)
    && (forall k :: 0 <= k < |p.lines| ==> |p.lines[k].indecies| >= 2)
    && (p.open ==> Last(p.lines).lineType == p.state.movementType
                   && Last(Last(p.lines).indecies) == Position(p.state))
  }

  lemma BeginValid(st: ParseState)
    ensures Valid(Begin(st), st.currentLine)
  {
    assert Range(st.currentLine, st.currentLine) == {};
  }

  lemma StepLineValid(p: Pass, l: GcodeLine, c0: int)
    requires Valid(p, c0)
    requires l.movement != NoMovement ==> l.kind != Modal
    ensures Valid(StepLine(p, l), c0)
  {
    match l.movement
    case NoMovement =>
    case Straight =>
      if OpensSegment(p, l.kind) {
        OpenValid(p, l, c0);
      } else {
        MergeValid(p, l, c0);
      }
    case _ =>
      ArcValid(p, l, c0);
  }

  lemma OpenValid(p: Pass, l: GcodeLine, c0: int)
    requires Valid(p, c0)
    requires l.movement == Straight && l.kind != Modal && OpensSegment(p, l.kind)
    ensures Valid(StepLine(p, l), c0)
  {
    var q := StepLine(p, l);
    var cur := p.state.currentLine;
    var segment := LineSegment(cur, l.kind, [Position(p.state), Point(l.x, l.y, l.z)]);
    assert q.lines == p.lines + [segment];
    IndicesBelow(p, c0);
    LineIndicesSnoc(p.lines, segment);
    RangeSnoc(c0, cur);
  }

  lemma MergeValid(p: Pass, l: GcodeLine, c0: int)
    requires Valid(p, c0)
    requires l.movement == Straight && l.kind != Modal && !OpensSegment(p, l.kind)
    ensures Valid(StepLine(p, l), c0)
  {
    var q := StepLine(p, l);
    var n := |p.lines|;
    var open := Last(p.lines);
    assert q.lines == p.lines[..n - 1] + [open.(indecies := open.indecies + [Point(l.x, l.y, l.z)])];
    forall k | 0 <= k < n ensures q.lines[k].index == p.lines[k].index {}
    assert LineIndices(q.lines) == LineIndices(p.lines);
  }

  lemma ArcValid(p: Pass, l: GcodeLine, c0: int)
    requires Valid(p, c0)
    requires (l.movement.ArcCW? || l.movement.ArcCC?) && l.kind != Modal
    ensures Valid(StepLine(p, l), c0)
  {
    var q := StepLine(p, l);
    var cur := p.state.currentLine;
    var arc := Last(q.arcs);
    assert q.arcs == p.arcs + [arc];
    IndicesBelow(p, c0);
    ArcIndicesSnoc(p.arcs, arc);
    RangeSnoc(c0, cur);
  }

  /** Every index emitted so far is below the counter. */
  lemma IndicesBelow(p: Pass, c0: int)
    requires Valid(p, c0)
    ensures forall k :: 0 <= k < |p.lines| ==> p.lines[k].index < p.state.currentLine
    ensures forall k :: 0 <= k < |p.arcs| ==> p.arcs[k].index < p.state.currentLine
  {
    forall k | 0 <= k < |p.lines| ensures p.lines[k].index < p.state.currentLine {
      assert p.lines[k].index in LineIndices(p.lines);
    }
    forall k | 0 <= k < |p.arcs| ensures p.arcs[k].index < p.state.currentLine {
      assert p.arcs[k].index in ArcIndices(p.arcs);
    }
  }

  lemma LineIndicesSnoc(lines: seq<LineSegment>, s: LineSegment)
    ensures LineIndices(lines + [s]) == LineIndices(lines) + {s.index}
  {
    var q := lines + [s];
    forall k | 0 <= k < |lines| ensures q[k] == lines[k] {}
    assert q[|lines|] == s;
  }

  lemma ArcIndicesSnoc(arcs: seq<ArcSegment>, a: ArcSegment)
    ensures ArcIndices(arcs + [a]) == ArcIndices(arcs) + {a.index}
  {
    var q := arcs + [a];
    forall k | 0 <= k < |arcs| ensures q[k] == arcs[k] {}
    assert q[|arcs|] == a;
  }

  lemma RangeSnoc(lo: int, hi: int)
    requires lo <= hi
    ensures Range(lo, hi + 1) == Range(lo, hi) + {hi}
  {
  }

  lemma {:induction false} RunValid(p: Pass, gcode: seq<string>, c0: int)
    requires Valid(p, c0)
    ensures Valid(Run(p, gcode), c0)
    decreases |gcode|
  {
    if gcode != [] {
      StepLineValid(p, ParseLine(Position(p.state), gcode[0]), c0);
      RunValid(Step(p, gcode[0]), gcode[1..], c0);
    }
  }

  lemma {:induction false} RunKeepsCoordinates(p: Pass, gcode: seq<string>)
    requires Coherent(p)
    ensures Run(p, gcode).state.coordinates == p.state.coordinates
    decreases |gcode|
  {
    if gcode != [] {
      RunKeepsCoordinates(Step(p, gcode[0]), gcode[1..]);
    }
  }

  // ---------------------------------------------------------------------
  // The `parse` call

  datatype ParseResult = ParseResult(lines: seq<LineSegment>, arcs: seq<ArcSegment>, parsed: int)

  /** `parse`: run the lines of one call from a fresh pass and report what
      the call emitted together with the cumulative count. */
  function Parse(st: ParseState, gcode: seq<string>): (out: (ParseState, ParseResult))
    ensures var (st', res) := out;
            && st.currentLine <= st'.currentLine
            && res.parsed == st'.currentLine - 1
            && |res.lines| + |res.arcs| == st'.currentLine - st.currentLine
            && LineIndices(res.lines) + ArcIndices(res.arcs) == Range(st.currentLine, st'.currentLine)
            && LineIndices(res.lines) !! ArcIndices(res.arcs)
            && IncreasingLines(res.lines) && IncreasingArcs(res.arcs)
            && (forall k :: 0 <= k < |res.lines| ==> |res.lines[k].indecies| >= 2)
            && st'.coordinates == st.coordinates
  {
    BeginValid(st);
    RunValid(Begin(st), gcode, st.currentLine);
    RunKeepsCoordinates(Begin(st), gcode);
    var p := Run(Begin(st), gcode);
    (p.state, ParseResult(p.lines, p.arcs, p.state.currentLine - 1))
  }

  // ---------------------------------------------------------------------
  // Properties of whole calls

  /** A straight move starts a new segment exactly when none is open in this
      call or its type differs from the state's; a move that is merged has
      the type of the segment it extends. */
  lemma SegmentOpensIff(p: Pass, l: GcodeLine, c0: int)
    requires Valid(p, c0)
    requires l.movement == Straight && l.kind != Modal
    ensures OpensSegment(p, l.kind) <==> !p.open || p.state.movementType != l.kind
    ensures !OpensSegment(p, l.kind) ==> Last(StepLine(p, l).lines).lineType == l.kind
  {
  }

  /** `q` only adds to what `p` emitted: arcs are appended, earlier
      segments keep their index and type, and their points only grow. */
  ghost predicate Extends(p: Pass, q: Pass) {
    && |p.lines| <= |q.lines|
    && |p.arcs| <= |q.arcs| && q.arcs[..|p.arcs|] == p.arcs
    && forall k :: 0 <= k < |p.lines| ==>
         && q.lines[k].index == p.lines[k].index
         && q.lines[k].lineType == p.lines[k].lineType
         && |p.lines[k].indecies| <= |q.lines[k].indecies|
         && q.lines[k].indecies[..|p.lines[k].indecies|] == p.lines[k].indecies
  }

  lemma StepExtends(p: Pass, l: GcodeLine)
    requires Coherent(p)
    requires l.movement != NoMovement ==> l.kind != Modal
    ensures Extends(p, StepLine(p, l))
  {
    var q := StepLine(p, l);
    if l.movement == Straight {
      forall k | 0 <= k < |p.lines|
        ensures q.lines[k].index == p.lines[k].index
        ensures q.lines[k].lineType == p.lines[k].lineType
        ensures |p.lines[k].indecies| <= |q.lines[k].indecies|
        ensures q.lines[k].indecies[..|p.lines[k].indecies|] == p.lines[k].indecies
      {
        if k < |p.lines| - 1 || OpensSegment(p, l.kind) {
          assert q.lines[k] == p.lines[k];
        }
      }
    }
  }

  lemma ExtendsTransitive(a: Pass, b: Pass, c: Pass)
    requires Extends(a, b) && Extends(b, c)
    ensures Extends(a, c)
  {
    forall k | 0 <= k < |a.lines|
      ensures c.lines[k].indecies[..|a.lines[k].indecies|] == a.lines[k].indecies
    {
      var n := |a.lines[k].indecies|;
      var m := |b.lines[k].indecies|;
      assert c.lines[k].indecies[..m][..n] == c.lines[k].indecies[..n];
    }
    assert c.arcs[..|b.arcs|][..|a.arcs|] == c.arcs[..|a.arcs|];
  }

  /** Emitted entities are never removed or rewritten by later lines of the
      same call; line segments are append-only. */
  lemma {:induction false} RunExtends(p: Pass, gcode: seq<string>)
    requires Coherent(p)
    ensures Extends(p, Run(p, gcode))
    decreases |gcode|
  {
    if gcode != [] {
      var p1 := Step(p, gcode[0]);
      StepExtends(p, ParseLine(Position(p.state), gcode[0]));
      RunExtends(p1, gcode[1..]);
      assert Run(p, gcode) == Run(p1, gcode[1..]);
      ExtendsTransitive(p, p1, Run(p1, gcode[1..]));
    } else {
      assert p.arcs[..|p.arcs|] == p.arcs;
      forall k | 0 <= k < |p.lines|
        ensures p.lines[k].indecies[..|p.lines[k].indecies|] == p.lines[k].indecies
      {
      }
    }
  }

  /** The open segment does not survive the end of a call: the first
      straight move of every call opens a new segment at the current
      position, even when its type equals the state's. */
  lemma FirstStraightOpens(st: ParseState, gcode: seq<string>)
    requires gcode != [] && ParseLine(Position(st), gcode[0]).movement == Straight
    ensures var l := ParseLine(Position(st), gcode[0]);
            var res := Parse(st, gcode).1;
            && |res.lines| >= 1
            && res.lines[0].index == st.currentLine
            && res.lines[0].lineType == l.kind
            && res.lines[0].indecies[..2] == [Position(st), Point(l.x, l.y, l.z)]
  {
    var p1 := Step(Begin(st), gcode[0]);
    RunExtends(p1, gcode[1..]);
    assert p1.lines[0].indecies == [Position(st), Point(ParseLine(Position(st), gcode[0]).x, ParseLine(Position(st), gcode[0]).y, ParseLine(Position(st), gcode[0]).z)];
  }

  /** Lines that do not move are absorbed: nothing is emitted, the state
      is untouched and the counter does not advance. */
  lemma {:induction false} StationaryLinesChangeNothing(p: Pass, gcode: seq<string>)
    requires Coherent(p)
    requires forall k :: 0 <= k < |gcode| ==> ParseLine(Position(p.state), gcode[k]).movement == NoMovement
    ensures Run(p, gcode) == p
    decreases |gcode|
  {
    if gcode != [] {
      assert Step(p, gcode[0]) == p;
      StationaryLinesChangeNothing(p, gcode[1..]);
    }
  }

  /** `clear` followed by an empty call reports nothing and a count of 0. */
  lemma ClearThenEmptyParse()
    ensures Parse(Clear(), []) == (Clear(), ParseResult([], [], 0))
  {
  }

  /** The count reported by successive calls is cumulative: the second call
      reports the first call's count plus what it emitted itself. */
  lemma ParsedIsCumulative(st: ParseState, a: seq<string>, b: seq<string>)
    ensures var (st1, r1) := Parse(st, a);
            var (st2, r2) := Parse(st1, b);
            r2.parsed == r1.parsed + |r2.lines| + |r2.arcs|
  {
  }

  /** Splitting the input between calls changes the output: two straight
      moves of one type form one segment in a single call, but two
      segments when fed to two calls. */
  lemma RunOne(p: Pass, a: string)
    requires Coherent(p)
    ensures Run(p, [a]) == Step(p, a)
  {
    assert [a][1..] == [];
  }

  lemma RunTwo(p: Pass, a: string, b: string)
    requires Coherent(p)
    ensures Run(p, [a, b]) == Step(Step(p, a), b)
  {
    assert [a, b][0] == a && [a, b][1..] == [b];
    RunOne(Step(p, a), b);
  }

  /** Within one call the lines are handled strictly in order: running `a`
      and then `b` from where `a` left off is running `a + b`. */
  lemma {:induction false} RunAppend(p: Pass, a: seq<string>, b: seq<string>)
    requires Coherent(p)
    ensures Run(p, a + b) == Run(Run(p, a), b)
    decreases |a|
  {
    if a == [] {
      assert a + b == b;
    } else {
      assert (a + b)[0] == a[0] && (a + b)[1..] == a[1..] + b;
      RunAppend(Step(p, a[0]), a[1..], b);
    }
  }

  lemma ChunkingSplitsSegments(st: ParseState, a: string, b: string)
    requires ParseLine(Position(st), a).movement == Straight
    requires var l := ParseLine(Position(st), a);
             var st1 := StepLine(Begin(st), l).state;
             var m := ParseLine(Position(st1), b);
             m.movement == Straight && m.kind == l.kind
    ensures |Parse(st, [a, b]).1.lines| == 1
    ensures var (st1, r1) := Parse(st, [a]);
            |r1.lines| + |Parse(st1, [b]).1.lines| == 2
  {
    var p1 := Step(Begin(st), a);
    var m := ParseLine(Position(p1.state), b);
    assert |p1.lines| == 1 && p1.open;
    assert !OpensSegment(p1, m.kind);
    assert |Step(p1, b).lines| == 1;
    RunTwo(Begin(st), a, b);
    RunOne(Begin(st), a);
    RunOne(Begin(p1.state), b);
    assert |Step(Begin(p1.state), b).lines| == 1;
  }
}

=== FILE: jsnumber.dfy ===
/**
 The slice of JavaScript's number semantics the G-code parser relies on:
 a number is either NaN or an exact real, `===` never holds of NaN, and
 `Number.parseFloat` reads a decimal prefix of a string.
 */
module JsNumber {

  import opened Text

  /** A JavaScript number: NaN, or a finite value modelled as an exact real. */
  datatype Num = NaN | Val(r: real)

  /** JavaScript `===` on numbers: NaN is equal to nothing, itself included. */
  predicate StrictEq(a: Num, b: Num) {
    a.Val? && b.Val? && a.r == b.r
  }

  /** JavaScript `<=` on numbers: false as soon as one side is NaN. */
  predicate LessEq(a: Num, b: Num) {
    a.Val? && b.Val? && a.r <= b.r
  }

  /** JavaScript `+`: NaN absorbs. */
  function Add(a: Num, b: Num): Num {
    if a.Val? && b.Val? then Val(a.r + b.r) else NaN
  }

  /** JavaScript `-`: NaN absorbs. */
  function Sub(a: Num, b: Num): Num {
    if a.Val? && b.Val? then Val(a.r - b.r) else NaN
  }

  /** JavaScript `*`: NaN absorbs. */
  function Mul(a: Num, b: Num): Num {
    if a.Val? && b.Val? then Val(a.r * b.r) else NaN
  }

  /** NaN is `===` to nothing, on either side, itself included. */
  lemma NaNNeverStrictEq(b: Num)
    ensures !StrictEq(NaN, b) && !StrictEq(b, NaN)
  {
  }

  predicate IsDigit(c: char) {
    '0' <= c <= '9'
  }

  predicate AllDigits(s: string) {
    forall k :: 0 <= k < |s| ==> IsDigit(s[k])
  }

  /** Length of the longest prefix of `s` made of decimal digits. */
  function DigitRun(s: string): (n: nat)
    ensures n <= |s|
    ensures AllDigits(s[..n])
    ensures n < |s| ==> !IsDigit(s[n])
  {
    if s != [] && IsDigit(s[0]) then
      var n := 1 + DigitRun(s[1..]);
      assert s[..n] == [s[0]] + s[1..][..n - 1];
      n
    else 0
  }

  function DigitValue(c: char): nat
    requires IsDigit(c)
  {
    (c as int) - ('0' as int)
  }

  /** The value of a string of decimal digits, most significant first. */
  function DigitsValue(d: string): nat
    requires AllDigits(d)
  {
    if d == [] then 0 else DigitsValue(d[..|d| - 1]) * 10 + DigitValue(d[|d| - 1])
  }

  function Pow10(n: nat): (p: nat)
    ensures p >= 1
  {
    if n == 0 then 1 else 10 * Pow10(n - 1)
  }

  /** What is left of `s` once leading white space and one sign character
      are skipped: the place where `parseFloat` expects the digits. */
  function Unsigned(s: string): string {
    var t := TrimStart(s);
    if t != [] && (t[0] == '+' || t[0] == '-') then t[1..] else t
  }

  predicate Negative(s: string) {
    var t := TrimStart(s);
    t != [] && t[0] == '-'
  }

  /** A decimal literal can start at the front of `u`: a digit, or a point
      followed by a digit. */
  predicate StartsNumeral(u: string) {
    (|u| > 0 && IsDigit(u[0])) || (|u| > 1 && u[0] == '.' && IsDigit(u[1]))
  }

  /** `Number.parseFloat`, restricted to the grammar
      white space, optional sign, digits, optional point and digits;
      whatever follows the longest such prefix is ignored. */
  function ParseFloat(s: string): (r: Num)
    ensures r.NaN? <==> !StartsNumeral(Unsigned(s))
    ensures r.Val? && r.r < 0.0 ==> Negative(s)
  {
    ReadDecimal(Unsigned(s), Negative(s))
  }

  /** The longest prefix of `u` of the form digits, optional point and
      digits, with the sign applied; NaN when that prefix has no digit. */
  function ReadDecimal(u: string, negative: bool): (r: Num)
    ensures r.NaN? <==> !StartsNumeral(u)
    ensures r.Val? && r.r < 0.0 ==> negative
  {
    var whole := u[..DigitRun(u)];
    var rest := u[|whole|..];
    var frac := if rest != [] && rest[0] == '.' then rest[1..][..DigitRun(rest[1..])] else [];
    if whole == [] && frac == [] then NaN
    else
      var magnitude := Magnitude(whole, frac);
      Val(if negative then -magnitude else magnitude)
  }

  /** The value of the digits `whole` `.` `frac`. */
  function Magnitude(whole: string, frac: string): (m: real)
    requires AllDigits(whole) && AllDigits(frac)
    ensures m >= 0.0
  {
    var f := DigitsValue(frac) as real / Pow10(|frac|) as real;
    assert f >= 0.0;
    DigitsValue(whole) as real + f
  }

  /** Decimal notation of a natural number, without leading zeros. */
  function FormatNat(n: nat): (d: string)
    ensures |d| >= 1 && AllDigits(d)
  {
    if n < 10 then ['0' + n as char] else FormatNat(n / 10) + ['0' + (n % 10) as char]
  }

  lemma {:induction false} FormatNatValue(n: nat)
    ensures DigitsValue(FormatNat(n)) == n
  {
    if n >= 10 {
      var d := FormatNat(n);
      assert d[..|d| - 1] == FormatNat(n / 10);
      FormatNatValue(n / 10);
    }
  }

  lemma {:induction false} DigitRunOfDigits(d: string, tail: string)
    requires AllDigits(d)
    requires tail == [] || !IsDigit(tail[0])
    ensures DigitRun(d + tail) == |d|
  {
    if d != [] {
      assert (d + tail)[1..] == d[1..] + tail;
      DigitRunOfDigits(d[1..], tail);
    }
  }

  lemma MagnitudeOfWhole(d: string)
    requires AllDigits(d)
    ensures Magnitude(d, []) == DigitsValue(d) as real
  {
    assert DigitsValue([]) == 0 && Pow10(0) == 1;
  }

  lemma {:induction false} ParseFloatDigits(neg: bool, d: string, tail: string)
    requires |d| >= 1 && AllDigits(d)
    requires tail == [] || (!IsDigit(tail[0]) && tail[0] != '.')
    ensures var v := DigitsValue(d) as real;
            ParseFloat((if neg then "-" else "") + d + tail) == Val(if neg then -v else v)
  {
    var s := (if neg then "-" else "") + d + tail;
    assert !IsSpace(s[0]);
    assert TrimStart(s) == s;
    assert Negative(s) == neg;
    var u := Unsigned(s);
    assert u == d + tail;
    DigitRunOfDigits(d, tail);
    assert u[..DigitRun(u)] == d;
    assert u[|d|..] == tail;
    MagnitudeOfWhole(d);
  }

  /** `parseFloat` reads back the decimal notation of any integer, whatever
      non-numeric text follows it. */
  lemma ParseFloatFormatInt(i: int, tail: string)
    requires tail == [] || (!IsDigit(tail[0]) && tail[0] != '.')
    ensures ParseFloat((if i < 0 then "-" else "") + FormatNat(if i < 0 then -i else i) + tail) == Val(i as real)
  {
    var n: nat := if i < 0 then -i else i;
    FormatNatValue(n);
    ParseFloatDigits(i < 0, FormatNat(n), tail);
  }

  /** `parseFloat` reads a decimal literal `w.d` (as in `X10.5`, `.5` or
      `5.`) as `w + d / 10^|d|`, with its sign, whatever non-digit text
      follows. */
  lemma ParseFloatDecimal(neg: bool, w: string, d: string, tail: string)
    requires AllDigits(w) && AllDigits(d) && |w| + |d| >= 1
    requires tail == [] || !IsDigit(tail[0])
    ensures var v := DigitsValue(w) as real + DigitsValue(d) as real / Pow10(|d|) as real;
            ParseFloat((if neg then "-" else "") + (w + ['.'] + d + tail)) == Val(if neg then -v else v)
  {
    var u := w + ['.'] + d + tail;
    SignedText(neg, u);
    ReadFraction(w, d, tail, neg);
  }

  /** A sign written before text that starts with a digit or a point is
      what `parseFloat` takes as the sign. */
  lemma SignedText(neg: bool, u: string)
    requires u != [] && (IsDigit(u[0]) || u[0] == '.')
    ensures Unsigned((if neg then "-" else "") + u) == u
    ensures Negative((if neg then "-" else "") + u) == neg
  {
    var s := (if neg then "-" else "") + u;
    assert !IsSpace(s[0]);
    assert TrimStart(s) == s;
    if neg {
      assert s[1..] == u;
    } else {
      assert s == u;
    }
  }

  lemma ReadFraction(w: string, d: string, tail: string, neg: bool)
    requires AllDigits(w) && AllDigits(d) && |w| + |d| >= 1
    requires tail == [] || !IsDigit(tail[0])
    ensures ReadDecimal(w + ['.'] + d + tail, neg)
            == Val(if neg then -Magnitude(w, d) else Magnitude(w, d))
  {
    var u := w + ['.'] + d + tail;
    assert u == w + (['.'] + d + tail);
    DigitRunOfDigits(w, ['.'] + d + tail);
    assert u[..DigitRun(u)] == w;
    var rest := u[|w|..];
    assert rest == ['.'] + d + tail;
    assert rest[1..] == d + tail;
    DigitRunOfDigits(d, tail);
    assert rest[1..][..DigitRun(rest[1..])] == d;
  }

  /** Leading white space never changes what `parseFloat` reads. */
  lemma ParseFloatSkipsSpace(ws: string, s: string)
    requires AllSpace(ws)
    ensures ParseFloat(ws + s) == ParseFloat(s)
  {
    TrimStartSkips(ws, s);
    assert Unsigned(ws + s) == Unsigned(s);
    assert Negative(ws + s) == Negative(s);
  }
}

=== FILE: preview.dfy ===
/**
 The bookkeeping half of PreviewLines.ts, with the scene graph erased:
 one entry per drawn line or arc, each drawn line mapped to the parser's
 index, routed to the main group or the travel group, and shown or hidden
 against a cursor.
 */
module Preview {

  import opened JsNumber
  import opened Types
  import Interpreter

  datatype Option<T> = None | Some(value: T)

  /** The group a drawn line hangs in: the preview itself, or its travel
      group, whose own visibility the travel toggle controls. */
  datatype Group = MainGroup | TravelGroup

  /** One entry of the `lines` map: the parser's index the drawn line is
      mapped to, the group the line was added to, and its own `visible`
      flag. */
  datatype Entry = Entry(index: int, group: Group, visible: bool)

  /** Every key of the map is a freshly created line, so the map holds
      exactly one entry per `set` call and its size is `|entries|`. */
  datatype PreviewLines = PreviewLines(entries: seq<Entry>, showTravel: bool, travelVisible: bool)

  /** The constructor: `showTravel` defaults to true, the travel group
      starts with that visibility, and the map is empty. */
  function NewPreviewLines(showTravel: Option<bool>): (p: PreviewLines)
    ensures p.entries == []
    ensures p.showTravel == (showTravel.None? || showTravel.value)
    ensures p.travelVisible == p.showTravel
  {
    var show := if showTravel.Some? then showTravel.value else true;
    PreviewLines([], show, show)
  }

  /** `clearElements`: a new empty map and a new travel group whose
      visibility is the current `showTravel`. */
  function ClearElements(p: PreviewLines): (q: PreviewLines)
    ensures q.entries == []
    ensures q.showTravel == p.showTravel && q.travelVisible == p.showTravel
  {
    PreviewLines([], p.showTravel, p.showTravel)
  }

  /** `toggleTravelVisibility`: only the travel group's visibility and the
      remembered setting change. */
  function ToggleTravelVisibility(p: PreviewLines, show: bool): (q: PreviewLines)
    ensures q.entries == p.entries
    ensures q.showTravel == show && q.travelVisible == show
  {
    p.(showTravel := show, travelVisible := show)
  }

  /** Clearing forgets everything `update` drew: the result is the same as
      clearing before drawing. */
  lemma ClearForgetsUpdate(p: PreviewLines, lines: seq<LineSegment>, arcs: seq<ArcSegment>)
    ensures ClearElements(Update(p, lines, arcs)) == ClearElements(p)
  {
  }

  /** The travel group `clearElements` creates takes the last toggled
      setting, not the visibility of the group it replaces. */
  lemma ClearKeepsToggle(p: PreviewLines, show: bool)
    ensures ClearElements(ToggleTravelVisibility(p, show)).travelVisible == show
    ensures ClearElements(p.(travelVisible := !p.showTravel)).travelVisible == p.showTravel
  {
  }

  /** JavaScript truthiness of a map value that is a number: 0 is falsy. */
  predicate Truthy(index: int) {
    index != 0
  }

  /** Whether an entry with a truthy index is visible under `cursor`. */
  predicate Reached(index: int, cursor: Num) {
    LessEq(Val(index as real), cursor)
  }

  /** The loop of `updateVisibleLines` over the entries. */
  function Refresh(entries: seq<Entry>, cursor: Num): (r: seq<Entry>)
    ensures |r| == |entries|
    ensures forall k :: 0 <= k < |r| ==> r[k].index == entries[k].index && r[k].group == entries[k].group
    ensures forall k :: 0 <= k < |r| && !Truthy(entries[k].index) ==> r[k].visible == entries[k].visible
    ensures forall k :: 0 <= k < |r| && Truthy(entries[k].index) ==> (r[k].visible <==> Reached(entries[k].index, cursor))
  {
    if entries == [] then []
    else
      var e := entries[0];
      var e' := if !Truthy(e.index) then e else e.(visible := Reached(e.index, cursor));
      [e'] + Refresh(entries[1..], cursor)
  }

  /** The cursor `updateVisibleLines` uses: the given one, or else the
      number of entries (not the largest index). */
  function CursorOf(p: PreviewLines, cursor: Option<Num>): Num {
    if cursor.Some? then cursor.value else Val(|p.entries| as real)
  }

  /** `updateVisibleLines`: only visibility flags change; an entry with a
      truthy index is visible exactly when its index is at most the cursor,
      one with index 0 keeps its flag. */
  function UpdateVisibleLines(p: PreviewLines, cursor: Option<Num>): (q: PreviewLines)
    ensures |q.entries| == |p.entries|
    ensures q.showTravel == p.showTravel && q.travelVisible == p.travelVisible
    ensures forall k :: 0 <= k < |q.entries| ==>
              q.entries[k].index == p.entries[k].index && q.entries[k].group == p.entries[k].group
    ensures forall k :: 0 <= k < |q.entries| && !Truthy(p.entries[k].index) ==>
              q.entries[k].visible == p.entries[k].visible
    ensures forall k :: 0 <= k < |q.entries| && Truthy(p.entries[k].index) ==>
              (q.entries[k].visible <==> Reached(p.entries[k].index, CursorOf(p, cursor)))
  {
    p.(entries := Refresh(p.entries, CursorOf(p, cursor)))
  }

  /** Tool segments hang in the preview itself, travel segments in the
      travel group. A new line is visible until the refresh. */
  function SegmentEntry(s: LineSegment): Entry {
    Entry(s.index, if s.lineType == Tool then MainGroup else TravelGroup, true)
  }

  /** Arcs always hang in the preview itself. */
  function ArcEntry(a: ArcSegment): Entry {
    Entry(a.index, MainGroup, true)
  }

  function SegmentEntries(lines: seq<LineSegment>): (r: seq<Entry>)
    ensures |r| == |lines|
    ensures forall k :: 0 <= k < |lines| ==> r[k] == SegmentEntry(lines[k])
  {
    if lines == [] then [] else [SegmentEntry(lines[0])] + SegmentEntries(lines[1..])
  }

  function ArcEntries(arcs: seq<ArcSegment>): (r: seq<Entry>)
    ensures |r| == |arcs|
    ensures forall k :: 0 <= k < |arcs| ==> r[k] == ArcEntry(arcs[k])
  {
    if arcs == [] then [] else [ArcEntry(arcs[0])] + ArcEntries(arcs[1..])
  }

  /** The entries `update` adds: one per line segment, then one per arc. */
  function Grow(p: PreviewLines, lines: seq<LineSegment>, arcs: seq<ArcSegment>): (g: PreviewLines)
    ensures |g.entries| == |p.entries| + |lines| + |arcs|
    ensures g.showTravel == p.showTravel && g.travelVisible == p.travelVisible
    ensures forall k :: 0 <= k < |p.entries| ==> g.entries[k] == p.entries[k]
    ensures forall k :: 0 <= k < |lines| ==> g.entries[|p.entries| + k] == SegmentEntry(lines[k])
    ensures forall k :: 0 <= k < |arcs| ==> g.entries[|p.entries| + |lines| + k] == ArcEntry(arcs[k])
  {
    var before := p.entries;
    var segs := SegmentEntries(lines);
    var grown := p.(entries := before + segs + ArcEntries(arcs));
    forall k | 0 <= k < |lines| ensures grown.entries[|before| + k] == SegmentEntry(lines[k]) {
      assert grown.entries[|before| + k] == segs[k];
    }
    forall k | 0 <= k < |arcs| ensures grown.entries[|before| + |lines| + k] == ArcEntry(arcs[k]) {
      assert grown.entries[|before| + |lines| + k] == ArcEntries(arcs)[k];
    }
    forall k | 0 <= k < |before| ensures grown.entries[k] == before[k] {
    }
    grown
  }

  /** `update`: one entry per line segment and one per arc, each new line
      mapped to its segment's or arc's index, then a refresh with the
      default cursor; where each new entry hangs is stated by
      `UpdateRoutesSegment` and `UpdateRoutesArc`. */
  function Update(p: PreviewLines, lines: seq<LineSegment>, arcs: seq<ArcSegment>): (q: PreviewLines)
    ensures |q.entries| == |p.entries| + |lines| + |arcs|
    ensures q.showTravel == p.showTravel && q.travelVisible == p.travelVisible
    ensures forall k :: 0 <= k < |p.entries| ==>
              q.entries[k].index == p.entries[k].index && q.entries[k].group == p.entries[k].group
    ensures forall k :: 0 <= k < |q.entries| && Truthy(q.entries[k].index) ==>
              (q.entries[k].visible <==> q.entries[k].index <= |q.entries|)
  {
    var grown := Grow(p, lines, arcs);
    assert CursorOf(grown, None) == Val(|grown.entries| as real);
    UpdateVisibleLines(grown, None)
  }

  /** The entry for the `k`-th line segment carries its index and hangs in
      the travel group exactly when the segment is a travel segment. */
  lemma UpdateRoutesSegment(p: PreviewLines, lines: seq<LineSegment>, arcs: seq<ArcSegment>, k: int)
    requires 0 <= k < |lines|
    ensures var e := Update(p, lines, arcs).entries[|p.entries| + k];
            e.index == lines[k].index && (e.group == TravelGroup <==> lines[k].lineType == Travel)
  {
    assert Grow(p, lines, arcs).entries[|p.entries| + k] == SegmentEntry(lines[k]);
  }

  /** The entry for the `k`-th arc carries its index and hangs in the main
      group. */
  lemma UpdateRoutesArc(p: PreviewLines, lines: seq<LineSegment>, arcs: seq<ArcSegment>, k: int)
    requires 0 <= k < |arcs|
    ensures var e := Update(p, lines, arcs).entries[|p.entries| + |lines| + k];
            e.index == arcs[k].index && e.group == MainGroup
  {
    assert Grow(p, lines, arcs).entries[|p.entries| + |lines| + k] == ArcEntry(arcs[k]);
  }

  /** Whether the entry at `k` is drawn: its own flag, and for a travel
      line also the travel group's visibility. */
  predicate Shown(p: PreviewLines, k: int)
    requires 0 <= k < |p.entries|
  {
    p.entries[k].visible && (p.entries[k].group == MainGroup || p.travelVisible)
  }

  /** The travel toggle hides or shows exactly the travel lines that are
      visible on their own, and leaves every main-group line as it was. */
  lemma ToggleAffectsOnlyTravel(p: PreviewLines, show: bool, k: int)
    requires 0 <= k < |p.entries|
    ensures var q := ToggleTravelVisibility(p, show);
            Shown(q, k) == if p.entries[k].group == MainGroup then Shown(p, k) else p.entries[k].visible && show
  {
  }

  /** The default cursor is the number of entries: an entry whose index is
      above it is hidden even though nothing asked for it to be. */
  lemma DefaultCursorIsEntryCount()
    ensures var p := PreviewLines([Entry(1, MainGroup, true), Entry(3, MainGroup, true)], true, true);
            var q := UpdateVisibleLines(p, None);
            q.entries[0].visible && !q.entries[1].visible
  {
  }

  /** A NaN cursor hides every entry with a truthy index. */
  lemma NaNCursorHidesAll(p: PreviewLines, k: int)
    requires 0 <= k < |p.entries| && Truthy(p.entries[k].index)
    ensures !UpdateVisibleLines(p, Some(NaN)).entries[k].visible
  {
  }

  /** After `clear` on both sides, drawing the output of one parse call
      leaves every entry visible: its indices are 1 up to the number of
      entries. */
  lemma FreshSessionAllVisible(gcode: seq<string>, pv: PreviewLines)
    ensures var res := Interpreter.Parse(Interpreter.Clear(), gcode).1;
            var q := Update(ClearElements(pv), res.lines, res.arcs);
            forall k :: 0 <= k < |q.entries| ==> q.entries[k].visible
  {
    var (st, res) := Interpreter.Parse(Interpreter.Clear(), gcode);
    IndexedFromOneAllVisible(pv, res.lines, res.arcs, st.currentLine);
  }

  /** Entries whose indices run from 1 up to their number, in any order, are all visible
      after `update` on an empty preview. */
  lemma IndexedFromOneAllVisible(pv: PreviewLines, lines: seq<LineSegment>, arcs: seq<ArcSegment>, next: int)
    requires |lines| + |arcs| == next - 1
    requires Interpreter.LineIndices(lines) + Interpreter.ArcIndices(arcs) == Interpreter.Range(1, next)
    ensures var q := Update(ClearElements(pv), lines, arcs);
            forall k :: 0 <= k < |q.entries| ==> q.entries[k].visible
  {
    var q := Update(ClearElements(pv), lines, arcs);
    forall k | 0 <= k < |q.entries| ensures q.entries[k].visible {
      var idx := q.entries[k].index;
      if k < |lines| {
        UpdateRoutesSegment(ClearElements(pv), lines, arcs, k);
        assert idx in Interpreter.LineIndices(lines);
      } else {
        var a := k - |lines|;
        UpdateRoutesArc(ClearElements(pv), lines, arcs, a);
        assert idx in Interpreter.ArcIndices(arcs);
      }
      assert idx in Interpreter.Range(1, next);
    }
  }

  // ---------------------------------------------------------------------
  // Arc radius

  /** The squared radius `getStartAndEndAngles` takes the root of: the
      distance from the centre to the start in the XY plane. */
  function RadiusSquared(s: Point, c: Point): (r: Num)
    ensures r.Val? <==> s.x.Val? && s.y.Val? && c.x.Val? && c.y.Val?
    ensures r.Val? ==> r.r >= 0.0
  {
    var dx := Sub(s.x, c.x);
    var dy := Sub(s.y, c.y);
    var sq := Add(Mul(dx, dx), Mul(dy, dy));
    assert sq.Val? ==> sq.r == dx.r * dx.r + dy.r * dy.r;
    sq
  }

  /** `radius` is what `Math.sqrt` returns for the arc: the non-negative
      root of the squared distance from centre to start. The end point is
      not consulted. */
  predicate IsRadius(arc: ArcSegment, radius: real) {
    radius >= 0.0 && RadiusSquared(arc.start, arc.center) == Val(radius * radius)
  }

  /** There is at most one radius per arc. */
  lemma RadiusUnique(arc: ArcSegment, r1: real, r2: real)
    requires IsRadius(arc, r1) && IsRadius(arc, r2)
    ensures r1 == r2
  {
    if r1 < r2 {
      SquareGrows(r1, r2);
    } else if r2 < r1 {
      SquareGrows(r2, r1);
    }
  }

  lemma SquareGrows(a: real, b: real)
    requires 0.0 <= a < b
    ensures a * a < b * b
  {
    var d := b - a;
    var e := b + a;
    assert d > 0.0 && e > 0.0;
    assert d * e > 0.0;
    assert b * b - a * a == d * e;
  }

  /** For an arc the parser emits, the squared radius is I² + J²: the
      centre offset alone fixes it. */
  lemma ParsedArcRadius(start: Point, i: real, j: real, direction: ArcDirection, end: Point, index: int)
    requires start.x.Val? && start.y.Val?
    ensures var arc := ArcSegment(index, direction, start, Interpreter.ArcCenter(start, Val(i), Val(j)), end);
            RadiusSquared(arc.start, arc.center) == Val(i * i + j * j)
  {
    var c := Interpreter.ArcCenter(start, Val(i), Val(j));
    assert start.x.r - c.x.r == -i && start.y.r - c.y.r == -j;
  }

  /** The arc from (10, 10) around (15, 10) has radius 5. */
  lemma RadiusExample()
    ensures IsRadius(ArcSegment(1, CW, Point(Val(10.0), Val(10.0), Val(0.0)),
                                Point(Val(15.0), Val(10.0), Val(0.0)),
                                Point(Val(20.0), Val(10.0), Val(0.0))), 5.0)
  {
  }
}

=== FILE: scenarios.dfy ===
/**
 Worked examples of `parse`, proved against the model, and the rule that a
 line without a motion code is dropped rather than merged.
 */
module Scenarios {

  import opened JsNumber
  import opened Types
  import opened Tokenizer
  import opened Interpreter

  function At(x: real, y: real, z: real): Point {
    Point(Val(x), Val(y), Val(z))
  }

  /** A classified line with the given type, movement and target; the other
      fields keep their defaults. */
  function Line(kind: CommandType, movement: MovementType, target: Point): GcodeLine {
    Defaults(target).(kind := kind, movement := movement)
  }

  lemma {:induction false} GValuesNone(ws: seq<string>)
    requires forall k :: 0 <= k < |ws| ==> !Starts(ws[k], 'G')
    ensures GValues(ws) == []
  {
    if ws != [] {
      GValuesNone(ws[1..]);
    }
  }

  /** A line written as fields none of which is a G, M, F or S word (say
      `X20 Y0`) is not a move, so `parse` drops it instead of extending the
      open segment with it. */
  lemma FieldsWithoutCodeDoNotMove(pos: Point, ws: seq<string>)
    requires |ws| >= 1 && forall k :: 0 <= k < |ws| ==> IsField(ws[k])
    requires EndsSolid(Concat(ws))
    requires forall k :: 0 <= k < |ws| ==> !Starts(ws[k], 'G') && !Starts(ws[k], 'M') && !Starts(ws[k], 'F') && !Starts(ws[k], 'S')
    ensures ParseLine(pos, Concat(ws)).movement == NoMovement
    ensures ParseLine(pos, Concat(ws)).kind == Modal
  {
    FieldsRoundTrip(ws);
    ReadWithoutCode(pos, ws);
    assert ParseLine(pos, Concat(ws)) == ReadLine(pos, ws);
  }

  lemma ReadWithoutCode(pos: Point, ws: seq<string>)
    requires forall k :: 0 <= k < |ws| ==> !Starts(ws[k], 'G') && !Starts(ws[k], 'M') && !Starts(ws[k], 'F') && !Starts(ws[k], 'S')
    ensures ReadLine(pos, ws).movement == NoMovement && ReadLine(pos, ws).kind == Modal
  {
    var d := Defaults(pos);
    AbsentFieldKept(d, ws, 'M');
    AbsentFieldKept(d, ws, 'F');
    AbsentFieldKept(d, ws, 'S');
    GValuesNone(ws);
    MotionNone([]);
  }

  /** The fields `M5`, `G1` classify as a travel move: the spindle stop wins. */
  lemma SpindleStopMakesTravel()
    ensures Classify([Val(1.0)], Val(5.0), Absent, Absent) == (Travel, Straight)
  {
    assert LastRecognizedAt([Val(1.0)], 0);
    MotionLast([Val(1.0)], 0);
  }

  /** A `G1` then a coordinates-only line: one segment, two points. */
  lemma CoordinatesOnlyLineIsDropped()
    ensures var p := StepLine(StepLine(Begin(Clear()), Line(Tool, Straight, At(10.0, 0.0, 0.0))),
                              Line(Modal, NoMovement, At(20.0, 0.0, 0.0)));
            && p.lines == [LineSegment(1, Tool, [At(0.0, 0.0, 0.0), At(10.0, 0.0, 0.0)])]
            && p.state.currentLine == 2
  {
  }

  /** Two tool moves in a row share one segment. */
  lemma SameTypeMerges()
    ensures var p := StepLine(StepLine(Begin(Clear()), Line(Tool, Straight, At(10.0, 0.0, 0.0))),
                              Line(Tool, Straight, At(20.0, 0.0, 0.0)));
            && p.lines == [LineSegment(1, Tool, [At(0.0, 0.0, 0.0), At(10.0, 0.0, 0.0), At(20.0, 0.0, 0.0)])]
            && p.state.currentLine == 2
  {
    var p1 := StepLine(Begin(Clear()), Line(Tool, Straight, At(10.0, 0.0, 0.0)));
    assert p1.lines == [LineSegment(1, Tool, [At(0.0, 0.0, 0.0), At(10.0, 0.0, 0.0)])];
    assert !OpensSegment(p1, Tool);
    assert p1.lines[..0] == [];
    assert [At(0.0, 0.0, 0.0), At(10.0, 0.0, 0.0)] + [At(20.0, 0.0, 0.0)]
        == [At(0.0, 0.0, 0.0), At(10.0, 0.0, 0.0), At(20.0, 0.0, 0.0)];
  }

  /** A tool move then a travel move: the type change opens a second
      segment, which starts where the first ends and takes the next index. */
  lemma TypeChangeSplits()
    ensures var p := StepLine(StepLine(Begin(Clear()), Line(Tool, Straight, At(10.0, 0.0, 0.0))),
                              Line(Travel, Straight, At(20.0, 0.0, 0.0)));
            && p.lines == [LineSegment(1, Tool, [At(0.0, 0.0, 0.0), At(10.0, 0.0, 0.0)]),
                           LineSegment(2, Travel, [At(10.0, 0.0, 0.0), At(20.0, 0.0, 0.0)])]
            && p.state.currentLine == 3
  {
  }

  /** A tool move to (10, 10, 2), then a line classified as a clockwise arc
      with X20 Y10 I5 J0: the arc starts where the tool is, is centred at
      (15, 10) and ends in the plane Z = 0. It closes the open segment, so a
      further tool move opens a second segment rather than extending the
      first, and Z stays 2 throughout. */
  lemma ArcFromOffsets()
    ensures var arcLine := Line(Tool, ArcCW, At(20.0, 10.0, 2.0)).(i := Val(5.0), j := Val(0.0));
            var p1 := StepLine(Begin(Clear()), Line(Tool, Straight, At(10.0, 10.0, 2.0)));
            var p2 := StepLine(p1, arcLine);
            var p3 := StepLine(p2, Line(Tool, Straight, At(30.0, 10.0, 2.0)));
            && p2.arcs == [ArcSegment(2, CW, At(10.0, 10.0, 2.0), At(15.0, 10.0, 0.0), At(20.0, 10.0, 0.0))]
            && p2.lines == p1.lines && p1.open && !p2.open
            && Position(p2.state) == At(20.0, 10.0, 2.0)
            && p3.lines == p1.lines + [LineSegment(3, Tool, [At(20.0, 10.0, 2.0), At(30.0, 10.0, 2.0)])]
  {
  }
}

=== FILE: text.dfy ===
/**
 The string operations of JavaScript the parser uses: `trim` and
 `split` on a single separator character.
 */
module Text {

  /** White space as `String.prototype.trim` and `parseFloat` see it:
      the WhiteSpace and LineTerminator code points of ECMAScript. */
  predicate IsSpace(c: char) {
    || c == '\t' || c == '\n' || c == '\U{000B}' || c == '\U{000C}' || c == '\r'
    || c == ' ' || c == '\U{00A0}' || c == '\U{1680}'
    || ('\U{2000}' <= c <= '\U{200A}')
    || c == '\U{2028}' || c == '\U{2029}' || c == '\U{202F}' || c == '\U{205F}'
    || c == '\U{3000}' || c == '\U{FEFF}'
  }

  predicate AllSpace(s: string) {
    forall k :: 0 <= k < |s| ==> IsSpace(s[k])
  }

  /** The number of white-space characters `s` starts with. */
  function LeadingSpace(s: string): (n: nat)
    ensures n <= |s|
    ensures forall k :: 0 <= k < n ==> IsSpace(s[k])
    ensures n < |s| ==> !IsSpace(s[n])
  {
    if s != [] && IsSpace(s[0]) then 1 + LeadingSpace(s[1..]) else 0
  }

  /** The number of white-space characters `s` ends with. */
  function TrailingSpace(s: string): (n: nat)
    ensures n <= |s|
    ensures forall k :: |s| - n <= k < |s| ==> IsSpace(s[k])
    ensures n < |s| ==> !IsSpace(s[|s| - n - 1])
  {
    if s != [] && IsSpace(s[|s| - 1]) then 1 + TrailingSpace(s[..|s| - 1]) else 0
  }

  /** Drops leading white space. */
  function TrimStart(s: string): (r: string)
    ensures |r| <= |s| && r == s[|s| - |r|..]
    ensures AllSpace(s[..|s| - |r|])
    ensures r == [] || !IsSpace(r[0])
  {
    s[LeadingSpace(s)..]
  }

  /** `String.prototype.trim`: the infix left once white space is dropped
      at both ends, and only there. */
  function Trim(s: string): (r: string)
    ensures exists i :: 0 <= i <= |s| - |r| && r == s[i..i + |r|]
                        && AllSpace(s[..i]) && AllSpace(s[i + |r|..])
    ensures r == [] || (!IsSpace(r[0]) && !IsSpace(r[|r| - 1]))
  {
    var t := TrimStart(s);
    var i := |s| - |t|;
    var r := t[..|t| - TrailingSpace(t)];
    assert r == s[i..i + |r|];
    r
  }

  /** A string with no white space at either end is its own trim. */
  lemma TrimUntouched(s: string)
    requires s != [] && !IsSpace(s[0]) && !IsSpace(s[|s| - 1])
    ensures Trim(s) == s
  {
    assert LeadingSpace(s) == 0;
    assert TrailingSpace(s) == 0;
  }

  lemma {:induction false} TrimStartSkips(ws: string, s: string)
    requires AllSpace(ws)
    ensures TrimStart(ws + s) == TrimStart(s)
  {
    if ws != [] {
      assert (ws + s)[0] == ws[0];
      assert (ws + s)[1..] == ws[1..] + s;
      TrimStartSkips(ws[1..], s);
    } else {
      assert ws + s == s;
    }
  }

  /** Joins `parts` with `sep` between consecutive parts. */
  function Join(parts: seq<string>, sep: char): string
    requires |parts| >= 1
  {
    if |parts| == 1 then parts[0] else parts[0] + [sep] + Join(parts[1..], sep)
  }

  predicate Free(parts: seq<string>, sep: char) {
    forall k :: 0 <= k < |parts| ==> sep !in parts[k]
  }

  /** `String.prototype.split` with a one-character separator: every
      separator cuts, empty parts are kept, and "" splits into [""]. */
  function Split(s: string, sep: char): (parts: seq<string>)
    ensures |parts| >= 1
    ensures Free(parts, sep)
    ensures Join(parts, sep) == s
  {
    if s == [] then [[]]
    else
      var rest := Split(s[1..], sep);
      if s[0] == sep then
        assert Join([[]] + rest, sep) == [sep] + s[1..] by {
          assert ([[]] + rest)[1..] == rest;
        }
        assert [sep] + s[1..] == s;
        [[]] + rest
      else
        JoinCons(s[0], rest, sep);
        assert [s[0]] + s[1..] == s;
        [[s[0]] + rest[0]] + rest[1..]
  }

  lemma JoinCons(c: char, parts: seq<string>, sep: char)
    requires |parts| >= 1
    ensures Join([[c] + parts[0]] + parts[1..], sep) == [c] + Join(parts, sep)
  {
    var q := [[c] + parts[0]] + parts[1..];
    assert q[1..] == parts[1..];
  }

  /** Splitting undoes joining parts that do not contain the separator. */
  lemma {:induction false} SplitJoin(parts: seq<string>, sep: char)
    requires |parts| >= 1 && Free(parts, sep)
    ensures Split(Join(parts, sep), sep) == parts
  {
    if |parts| == 1 {
      SplitSepFree(parts[0], sep);
    } else {
      var tail := Join(parts[1..], sep);
      SplitJoin(parts[1..], sep);
      SplitPrefix(parts[0], tail, sep);
      assert [parts[0]] + parts[1..] == parts;
    }
  }

  lemma {:induction false} SplitSepFree(p: string, sep: char)
    requires sep !in p
    ensures Split(p, sep) == [p]
  {
    if p != [] {
      SplitSepFree(p[1..], sep);
      assert [p[0]] + p[1..] == p;
    }
  }

  lemma {:induction false} SplitPrefix(p: string, tail: string, sep: char)
    requires sep !in p
    ensures Split(p + [sep] + tail, sep) == [p] + Split(tail, sep)
  {
    if p == [] {
      assert p + [sep] + tail == [sep] + tail;
      assert ([sep] + tail)[1..] == tail;
    } else {
      assert (p + [sep] + tail)[1..] == p[1..] + [sep] + tail;
      SplitPrefix(p[1..], tail, sep);
      assert [p[0]] + p[1..] == p;
    }
  }
}

=== FILE: tokenizer.dfy ===
/**
 The per-line half of GCodeParser.ts: `makeLineReadable` rewrites a raw
 line so that every recognised letter starts a `;`-separated field,
 `parseLine` reads the fields and classifies the line.
 */
module Tokenizer {

  import opened Text
  import opened JsNumber
  import opened Types

  /** The letters `makeLineReadable` puts a `;` in front of, in the order of
      its `replace` calls. `Z` is not among them. */
  const Separators: string := "GXYMFSIJR"

  /** Upper-casing of ASCII letters, the only case folding a `/x/gi`
      pattern without the `u` flag applies to these letters. */
  function ToUpper(c: char): char {
    if 'a' <= c <= 'z' then (c as int - 32) as char else c
  }


  /** The single-character rewriting the chain amounts to. */
  function ExpandChar(c: char, letters: string): string {
    if ToUpper(c) in letters then [';', ToUpper(c)] else [c]
  }

  function ExpandAll(s: string, letters: string): string {
    if s == [] then [] else ExpandChar(s[0], letters) + ExpandAll(s[1..], letters)
  }

  /** `s` with every letter that folds to `L` written as `L`. */
  function UpcaseLetter(s: string, L: char): string {
    if s == [] then [] else [if ToUpper(s[0]) == L then L else s[0]] + UpcaseLetter(s[1..], L)
  }

  /** Removes every `;` that stands immediately before an `L`, front to back. */
  function Unmark(r: string, L: char): string
    decreases |r|
  {
    if r == [] then []
    else if |r| >= 2 && r[0] == ';' && r[1] == L then [L] + Unmark(r[2..], L)
    else [r[0]] + Unmark(r[1..], L)
  }

  /** `s.replace(/l/gi, ";L")` for the upper-case letter `L`. Taking the
      inserted `;` out again gives back `s` with its l's upper-cased, and
      the replacement is one rewriting step with `L` as the only separator
      letter. */
  function ReplaceLetter(s: string, L: char): (r: string)
    ensures s == [] <==> r == []
    ensures s != [] ==> r[0] == if ToUpper(s[0]) == L then ';' else s[0]
    ensures ToUpper(L) == L && L != ';' ==> Unmark(r, L) == UpcaseLetter(s, L)
    ensures ToUpper(L) == L ==> r == ExpandAll(s, [L])
  {
    if s == [] then []
    else
      var rest := ReplaceLetter(s[1..], L);
      if ToUpper(s[0]) == L then
        var r := [';', L] + rest;
        assert r[2..] == rest;
        r
      else
        var r := [s[0]] + rest;
        assert r[1..] == rest;
        r
  }

  /** No replacement text contains a letter a later pattern matches: every
      letter is upper-case, not `;`, and does not occur again later. */
  predicate ChainSafe(letters: string) {
    forall k :: 0 <= k < |letters| ==>
      ToUpper(letters[k]) == letters[k] && letters[k] != ';' && letters[k] !in letters[k + 1..]
  }

  lemma {:induction false} ExpandAllAppend(a: string, b: string, letters: string)
    ensures ExpandAll(a + b, letters) == ExpandAll(a, letters) + ExpandAll(b, letters)
  {
    if a != [] {
      assert (a + b)[1..] == a[1..] + b;
      ExpandAllAppend(a[1..], b, letters);
    } else {
      assert a + b == b;
    }
  }

  lemma {:induction false} ReplaceThenExpand(s: string, L: char, rest: string)
    requires ToUpper(L) == L && L != ';' && L !in rest && ';' !in rest
    ensures ExpandAll(ReplaceLetter(s, L), rest) == ExpandAll(s, [L] + rest)
  {
    if s != [] {
      var head := if ToUpper(s[0]) == L then [';', L] else [s[0]];
      ExpandAllAppend(head, ReplaceLetter(s[1..], L), rest);
      ReplaceThenExpand(s[1..], L, rest);
      if ToUpper(s[0]) == L {
        assert ExpandAll(head, rest) == ExpandChar(';', rest) + ExpandAll([L], rest);
      } else {
        assert ExpandAll(head, rest) == ExpandChar(s[0], rest);
      }
    }
  }

  lemma {:induction false} ExpandAllNone(s: string)
    ensures ExpandAll(s, []) == s
  {
    if s != [] {
      ExpandAllNone(s[1..]);
    }
  }

  /** The tail of a chain-safe letter list is chain-safe and holds no `;`;
      its head is an upper-case letter other than `;` that the tail lacks. */
  lemma ChainSafeTail(letters: string)
    requires letters != [] && ChainSafe(letters)
    ensures ChainSafe(letters[1..]) && ';' !in letters[1..]
    ensures ToUpper(letters[0]) == letters[0] && letters[0] != ';' && letters[0] !in letters[1..]
  {
    var rest := letters[1..];
    forall k | 0 <= k < |rest|
      ensures ToUpper(rest[k]) == rest[k] && rest[k] != ';' && rest[k] !in rest[k + 1..]
    {
      assert rest[k] == letters[k + 1] && rest[k + 1..] == letters[k + 2..];
    }
  }

  /** The chain of `replace` calls, one per letter of `letters`, in order.
      When no replacement text contains a letter a later pattern matches,
      the chain is one per-character rewriting. */
  function ReplaceEach(s: string, letters: string): (r: string)
    ensures ChainSafe(letters) ==> r == ExpandAll(s, letters)
    decreases |letters|
  {
    if letters == [] then
      ExpandAllNone(s);
      s
    else
      var r := ReplaceEach(ReplaceLetter(s, letters[0]), letters[1..]);
      if ChainSafe(letters) then
        ChainSafeTail(letters);
        ReplaceThenExpand(s, letters[0], letters[1..]);
        assert [letters[0]] + letters[1..] == letters;
        r
      else
        r
  }

  lemma SeparatorsChainSafe()
    ensures ChainSafe(Separators)
  {
  }

  /** Removes one leading `;`, if there is one. */
  function DropLeadingSeparator(s: string): string {
    if s != [] && s[0] == ';' then s[1..] else s
  }

  /** `makeLineReadable`: trim, put `;` and the upper-case letter before
      every separator letter of either case, drop one leading `;`.
      `ReplaceChainAgrees` shows this is what the source's nine `replace`
      calls, run in order, compute. */
  function MakeLineReadable(line: string): string {
    DropLeadingSeparator(ExpandAll(Trim(line), Separators))
  }

  /** The chain of nine `replace` calls, run as written on the trimmed line,
      gives the same text. */
  lemma ReplaceChainAgrees(line: string)
    ensures MakeLineReadable(line) == DropLeadingSeparator(ReplaceEach(Trim(line), Separators))
  {
    SeparatorsChainSafe();
  }

  /** Every `;` is immediately followed by a separator letter. */
  predicate SeparatorsLead(s: string) {
    forall k :: 0 <= k < |s| && s[k] == ';' ==> k + 1 < |s| && s[k + 1] in Separators
  }

  lemma {:induction false} ExpandAllLeads(t: string)
    requires ';' !in t
    ensures SeparatorsLead(ExpandAll(t, Separators))
  {
    if t != [] {
      ExpandAllLeads(t[1..]);
      var head := ExpandChar(t[0], Separators);
      var tail := ExpandAll(t[1..], Separators);
      var s := head + tail;
      forall k | 0 <= k < |s| && s[k] == ';'
        ensures k + 1 < |s| && s[k + 1] in Separators
      {
        if k >= |head| {
          assert tail[k - |head|] == ';';
        }
      }
    }
  }

  /** With no `;` in the trimmed line, the readable line begins with the
      line's first character, upper-cased if it is a separator letter. */
  lemma ReadableFront(line: string)
    requires ';' !in Trim(line) && Trim(line) != []
    ensures var r := MakeLineReadable(line); var c := Trim(line)[0];
            r != [] && r[0] == (if ToUpper(c) in Separators then ToUpper(c) else c)
            && SeparatorsLead(r)
  {
    ExpandFront(Trim(line));
  }

  lemma ExpandFront(t: string)
    requires ';' !in t && t != []
    ensures var r := DropLeadingSeparator(ExpandAll(t, Separators));
            r != [] && r[0] == (if ToUpper(t[0]) in Separators then ToUpper(t[0]) else t[0])
            && SeparatorsLead(r)
  {
    var head := ExpandChar(t[0], Separators);
    var e := ExpandAll(t, Separators);
    ExpandAllLeads(t);
    assert e == head + ExpandAll(t[1..], Separators);
    assert e[0] == head[0];
    if e[0] == ';' {
      var r := e[1..];
      assert r[0] == head[1];
      forall k | 0 <= k < |r| && r[k] == ';' ensures k + 1 < |r| && r[k + 1] in Separators {
        assert e[k + 1] == ';';
      }
    }
  }

  /** Parts after the first start with the character that follows a
      separator in `s`; the first part starts where `s` does. */
  lemma {:induction false} SplitPartStarts(s: string, sep: char, starts: set<char>)
    requires forall k :: 1 <= k < |s| && s[k - 1] == sep ==> s[k] in starts
    ensures var parts := Split(s, sep);
            && (parts[0] != [] ==> parts[0][0] == s[0])
            && (forall j :: 1 <= j < |parts| && parts[j] != [] ==> parts[j][0] in starts)
  {
    if s != [] {
      var rest := Split(s[1..], sep);
      SplitPartStarts(s[1..], sep, starts);
    }
  }

  /** A field as a G-code writer would spell it: an upper-case separator
      letter, then text with no separator letter (of either case) and no `;`. */
  predicate IsField(w: string) {
    |w| >= 1 && w[0] in Separators && Plain(w[1..])
  }

  /** Text with no separator letter, of either case, and no `;`. */
  predicate Plain(t: string) {
    t == [] || (ToUpper(t[0]) !in Separators && t[0] != ';' && Plain(t[1..]))
  }

  function Concat(ws: seq<string>): (line: string)
    ensures |ws| >= 1 && |ws[0]| >= 1 ==> |line| >= 1 && line[0] == ws[0][0]
  {
    if ws == [] then [] else ws[0] + Concat(ws[1..])
  }

  lemma {:induction false} ExpandPlain(t: string)
    requires Plain(t)
    ensures ExpandAll(t, Separators) == t
    ensures ';' !in t
  {
    if t != [] {
      ExpandPlain(t[1..]);
    }
  }

  lemma ExpandField(w: string)
    requires IsField(w)
    ensures ExpandAll(w, Separators) == [';'] + w
  {
    assert ToUpper(w[0]) == w[0];
    ExpandPlain(w[1..]);
  }

  lemma {:induction false} ExpandFields(ws: seq<string>)
    requires |ws| >= 1 && forall k :: 0 <= k < |ws| ==> IsField(ws[k])
    ensures ExpandAll(Concat(ws), Separators) == [';'] + Join(ws, ';')
  {
    var w, rest := ws[0], ws[1..];
    assert Concat(ws) == w + Concat(rest);
    ExpandAllAppend(w, Concat(rest), Separators);
    ExpandField(w);
    if |ws| == 1 {
      assert Concat(rest) == [];
      assert ExpandAll([], Separators) == [];
      assert [';'] + w + [] == [';'] + w;
    } else {
      ExpandFields(rest);
      assert Join(ws, ';') == w + [';'] + Join(rest, ';');
      assert ([';'] + w) + ([';'] + Join(rest, ';')) == [';'] + (w + [';'] + Join(rest, ';'));
    }
  }

  lemma SeparatorNotSpace(c: char)
    requires c in Separators
    ensures !IsSpace(c)
  {
  }

  lemma FieldsAreFree(ws: seq<string>)
    requires forall k :: 0 <= k < |ws| ==> IsField(ws[k])
    ensures Free(ws, ';')
  {
    forall k | 0 <= k < |ws| ensures ';' !in ws[k] {
      ExpandPlain(ws[k][1..]);
      assert ws[k] == [ws[k][0]] + ws[k][1..];
    }
  }

  lemma FieldsTrimmed(ws: seq<string>)
    requires |ws| >= 1 && IsField(ws[0])
    requires EndsSolid(Concat(ws))
    ensures Trim(Concat(ws)) == Concat(ws)
  {
    var line := Concat(ws);
    SeparatorNotSpace(line[0]);
    TrimUntouched(line);
  }

  lemma FieldsReadable(ws: seq<string>)
    requires |ws| >= 1 && forall k :: 0 <= k < |ws| ==> IsField(ws[k])
    requires EndsSolid(Concat(ws))
    ensures MakeLineReadable(Concat(ws)) == Join(ws, ';')
  {
    FieldsTrimmed(ws);
    ExpandFields(ws);
    DropSeparator(Join(ws, ';'));
  }

  lemma DropSeparator(j: string)
    ensures DropLeadingSeparator([';'] + j) == j
  {
    assert ([';'] + j)[1..] == j;
  }

  /** Tokenizing round trip: a line written as a run of fields, with no
      white space at its end, is split back into exactly those fields. */
  lemma FieldsRoundTrip(ws: seq<string>)
    requires |ws| >= 1 && forall k :: 0 <= k < |ws| ==> IsField(ws[k])
    requires EndsSolid(Concat(ws))
    ensures Parts(Concat(ws)) == ws
  {
    FieldsReadable(ws);
    FieldsAreFree(ws);
    SplitJoin(ws, ';');
    assert Parts(Concat(ws)) == Split(Join(ws, ';'), ';');
  }

  /** The line does not end in white space. */
  predicate EndsSolid(s: string) {
    s != [] && !IsSpace(s[|s| - 1])
  }

  // ---------------------------------------------------------------------
  // Fields

  /** The record `parseLine` fills: the G values in order, the
      classification, and one number per other recognised letter. */
  datatype GcodeLine = GcodeLine(
    g: seq<Num>, kind: CommandType, movement: MovementType,
    m: Num, s: Num, f: Num, x: Num, y: Num, z: Num, i: Num, j: Num)

  /** -1 marks an absent M, S, F, I or J. */
  const Absent: Num := Val(-1.0)

  /** The record before any field is read: X, Y and Z default to the
      current position, the rest to -1. */
  function Defaults(pos: Point): GcodeLine {
    GcodeLine([], Modal, NoMovement, Absent, Absent, Absent, pos.x, pos.y, pos.z, Absent, Absent)
  }

  /** The letters whose field holds a single number; the last one read wins. */
  predicate IsScalarLetter(c: char) {
    c == 'M' || c == 'X' || c == 'Y' || c == 'Z' || c == 'I' || c == 'J' || c == 'F' || c == 'S'
  }

  function FieldOf(l: GcodeLine, letter: char): Num
    requires IsScalarLetter(letter)
  {
    match letter
    case 'M' => l.m
    case 'X' => l.x
    case 'Y' => l.y
    case 'Z' => l.z
    case 'I' => l.i
    case 'J' => l.j
    case 'F' => l.f
    case 'S' => l.s
  }

  predicate Starts(part: string, letter: char) {
    part != [] && part[0] == letter
  }

  /** Stores `v` in the slot of `letter`: `G` appends to the G values, a
      single-number letter overwrites its own field and no other, a letter
      without a slot changes nothing. */
  function Store(acc: GcodeLine, letter: char, v: Num): (r: GcodeLine)
    ensures r.g == if letter == 'G' then acc.g + [v] else acc.g
    ensures forall c :: IsScalarLetter(c) ==> FieldOf(r, c) == if c == letter then v else FieldOf(acc, c)
    ensures r.kind == acc.kind && r.movement == acc.movement
  {
    match letter
    case 'G' => acc.(g := acc.g + [v])
    case 'M' => acc.(m := v)
    case 'X' => acc.(x := v)
    case 'Y' => acc.(y := v)
    case 'Z' => acc.(z := v)
    case 'I' => acc.(i := v)
    case 'J' => acc.(j := v)
    case 'F' => acc.(f := v)
    case 'S' => acc.(s := v)
    case _ => acc
  }

  /** One field: the first character picks the slot, the rest is read by
      `parseFloat`. An empty part changes nothing. */
  function ReadPart(acc: GcodeLine, part: string): (r: GcodeLine)
    ensures r.g == acc.g + GValues([part])
    ensures forall c :: IsScalarLetter(c) ==>
              FieldOf(r, c) == if Starts(part, c) then ParseFloat(part[1..]) else FieldOf(acc, c)
    ensures r.kind == acc.kind && r.movement == acc.movement
  {
    assert GValues([part]) == (if Starts(part, 'G') then [ParseFloat(part[1..])] else []) + GValues([]);
    if part == [] then acc else Store(acc, part[0], ParseFloat(part[1..]))
  }

  /** The fields of `parts`, read in order: every G part is collected, in
      order, and the classification is left alone. */
  function ReadParts(acc: GcodeLine, parts: seq<string>): (r: GcodeLine)
    ensures r.g == acc.g + GValues(parts)
    ensures r.kind == acc.kind && r.movement == acc.movement
  {
    if parts == [] then acc
    else
      var init, last := parts[..|parts| - 1], parts[|parts| - 1];
      var prev := ReadParts(acc, init);
      var r := ReadPart(prev, last);
      assert init + [last] == parts;
      GValuesAppend(init, last);
      assert r.g == acc.g + GValues(init) + GValues([last]);
      r
  }

  /** A single-number field holds the value of the LAST part with its letter. */
  lemma {:induction false} LastFieldWins(acc: GcodeLine, parts: seq<string>, letter: char, k: int)
    requires IsScalarLetter(letter)
    requires 0 <= k < |parts| && Starts(parts[k], letter)
    requires forall j :: k < j < |parts| ==> !Starts(parts[j], letter)
    ensures FieldOf(ReadParts(acc, parts), letter) == ParseFloat(parts[k][1..])
  {
    var init := parts[..|parts| - 1];
    if k < |parts| - 1 {
      LastFieldWins(acc, init, letter, k);
    }
  }

  /** A single-number field no part names keeps its default. */
  lemma {:induction false} AbsentFieldKept(acc: GcodeLine, parts: seq<string>, letter: char)
    requires IsScalarLetter(letter)
    requires forall j :: 0 <= j < |parts| ==> !Starts(parts[j], letter)
    ensures FieldOf(ReadParts(acc, parts), letter) == FieldOf(acc, letter)
  {
    if parts != [] {
      AbsentFieldKept(acc, parts[..|parts| - 1], letter);
    }
  }

  /** The G values of `parts`, front to back. */
  function GValues(parts: seq<string>): seq<Num> {
    if parts == [] then []
    else (if Starts(parts[0], 'G') then [ParseFloat(parts[0][1..])] else []) + GValues(parts[1..])
  }

  lemma {:induction false} GValuesAppend(parts: seq<string>, p: string)
    ensures GValues(parts + [p]) == GValues(parts) + GValues([p])
  {
    if parts != [] {
      var head := if Starts(parts[0], 'G') then [ParseFloat(parts[0][1..])] else [];
      assert (parts + [p])[0] == parts[0] && (parts + [p])[1..] == parts[1..] + [p];
      assert GValues(parts + [p]) == head + GValues(parts[1..] + [p]);
      GValuesAppend(parts[1..], p);
      assert GValues(parts) == head + GValues(parts[1..]);
    } else {
      assert parts + [p] == [p];
    }
  }

  // ---------------------------------------------------------------------
  // Classification

  /** A G value the classifier acts on: 0, 1, 2 or 3. */
  predicate Recognized(v: Num) {
    v.Val? && (v.r == 0.0 || v.r == 1.0 || v.r == 2.0 || v.r == 3.0)
  }

  /** The fixed table of motion codes. */
  function MotionCode(v: Num): (CommandType, MovementType)
    requires Recognized(v)
  {
    if v.r == 0.0 then (Travel, Straight)
    else if v.r == 1.0 then (Tool, Straight)
    else if v.r == 2.0 then (Tool, ArcCW)
    else (Tool, ArcCC)
  }

  /** `g` holds a recognised code at `k` and none after it. */
  predicate LastRecognizedAt(g: seq<Num>, k: int) {
    0 <= k < |g| && Recognized(g[k]) && forall j :: k < j < |g| ==> !Recognized(g[j])
  }

  /** The loop over the G values: each of 0, 1, 2, 3 reassigns the type and
      movement, anything else leaves them. */
  function Motion(g: seq<Num>): (r: (CommandType, MovementType))
    ensures r.0 == Modal <==> r.1 == NoMovement
  {
    if g == [] then (Modal, NoMovement)
    else Reassign(Motion(g[..|g| - 1]), g[|g| - 1])
  }

  /** Without a recognised code the line does not move. */
  lemma {:induction false} MotionNone(g: seq<Num>)
    requires forall k :: 0 <= k < |g| ==> !Recognized(g[k])
    ensures Motion(g) == (Modal, NoMovement)
  {
    if g != [] {
      MotionNone(g[..|g| - 1]);
    }
  }

  /** The last recognised code decides, whatever came before it. */
  lemma {:induction false} MotionLast(g: seq<Num>, k: int)
    requires LastRecognizedAt(g, k)
    ensures Motion(g) == MotionCode(g[k])
  {
    var init := g[..|g| - 1];
    if k < |g| - 1 {
      assert LastRecognizedAt(init, k);
      MotionLast(init, k);
    }
  }

  /** One iteration of that loop: the `===` tests against 0, 1, 2 and 3. */
  function Reassign(prev: (CommandType, MovementType), v: Num): (r: (CommandType, MovementType))
    ensures Recognized(v) ==> r == MotionCode(v)
    ensures !Recognized(v) ==> r == prev
  {
    if StrictEq(v, Val(0.0)) then (Travel, Straight)
    else if StrictEq(v, Val(1.0)) then (Tool, Straight)
    else if StrictEq(v, Val(2.0)) then (Tool, ArcCW)
    else if StrictEq(v, Val(3.0)) then (Tool, ArcCC)
    else prev
  }

  /** The classification: the motion of the G values, then the
      post-adjustment of the type by M, F and S. */
  function Classify(g: seq<Num>, m: Num, f: Num, s: Num): (r: (CommandType, MovementType))
    ensures r.1 == Motion(g).1
    ensures r.1 != NoMovement ==> r.0 != Modal
    ensures StrictEq(m, Val(5.0)) ==> r.0 == Travel
    ensures !StrictEq(m, Val(5.0)) && (!StrictEq(m, Absent) || !StrictEq(f, Absent) || !StrictEq(s, Absent))
            ==> r.0 == Tool
    ensures StrictEq(m, Absent) && StrictEq(f, Absent) && StrictEq(s, Absent) ==> r == Motion(g)
  {
    var motion := Motion(g);
    var toolKind := if !StrictEq(m, Absent) || !StrictEq(f, Absent) || !StrictEq(s, Absent) then Tool else motion.0;
    (if StrictEq(m, Val(5.0)) then Travel else toolKind, motion.1)
  }

  /** The fields of a line, once made readable and split on `;`. */
  function Parts(line: string): seq<string> {
    Split(MakeLineReadable(line), ';')
  }

  /** Read the fields over the defaults, then classify. */
  function ReadLine(pos: Point, parts: seq<string>): (r: GcodeLine)
    ensures r.movement != NoMovement ==> r.kind != Modal
    ensures r.g == GValues(parts)
    ensures (r.kind, r.movement) == Classify(r.g, r.m, r.f, r.s)
  {
    var fields := ReadParts(Defaults(pos), parts);
    var c := Classify(fields.g, fields.m, fields.f, fields.s);
    fields.(kind := c.0, movement := c.1)
  }

  /** `parseLine`: make the line readable, split it into fields and read them. */
  function ParseLine(pos: Point, line: string): (r: GcodeLine)
    ensures r.movement != NoMovement ==> r.kind != Modal
    ensures r.g == GValues(Parts(line))
    ensures (r.kind, r.movement) == Classify(r.g, r.m, r.f, r.s)
  {
    ReadLine(pos, Parts(line))
  }

  /** An X, Y or Z no field names stays at the current position; an M, S,
      F, I or J no field names stays -1. */
  lemma ParseLineDefaults(pos: Point, line: string, letter: char)
    requires IsScalarLetter(letter)
    requires forall j :: 0 <= j < |Parts(line)| ==> !Starts(Parts(line)[j], letter)
    ensures FieldOf(ParseLine(pos, line), letter) == FieldOf(Defaults(pos), letter)
  {
    AbsentFieldKept(Defaults(pos), Parts(line), letter);
  }

  /** A named field holds the value of the last part naming it. */
  lemma ParseLineField(pos: Point, line: string, letter: char, k: int)
    requires IsScalarLetter(letter)
    requires 0 <= k < |Parts(line)| && Starts(Parts(line)[k], letter)
    requires forall j :: k < j < |Parts(line)| ==> !Starts(Parts(line)[j], letter)
    ensures FieldOf(ParseLine(pos, line), letter) == ParseFloat(Parts(line)[k][1..])
  {
    LastFieldWins(Defaults(pos), Parts(line), letter, k);
  }

  /** `Z` is not a separator letter, so without a `;` in the line a Z value
      is read only when `Z` opens the trimmed line. */
  lemma ZOnlyAtFront(pos: Point, line: string)
    requires ';' !in Trim(line)
    requires Trim(line) == [] || Trim(line)[0] != 'Z'
    ensures ParseLine(pos, line).z == pos.z
  {
    var r := MakeLineReadable(line);
    if Trim(line) != [] {
      ReadableFront(line);
    } else {
      assert ExpandAll([], Separators) == [];
    }
    NoZPart(r);
    ParseLineDefaults(pos, line, 'Z');
  }

  /** In a readable line that does not open with `Z`, no part does. */
  lemma NoZPart(r: string)
    requires SeparatorsLead(r)
    requires r == [] || r[0] != 'Z'
    ensures forall j :: 0 <= j < |Split(r, ';')| ==> !Starts(Split(r, ';')[j], 'Z')
  {
    var parts := Split(r, ';');
    var starts := set c | c in Separators;
    forall k | 1 <= k < |r| && r[k - 1] == ';' ensures r[k] in starts {
      assert r[(k - 1) + 1] in Separators;
    }
    SplitPartStarts(r, ';', starts);
    assert 'Z' !in starts;
    forall j | 0 <= j < |parts| ensures !Starts(parts[j], 'Z') {
      if j == 0 && parts[0] != [] {
        assert r != [] && parts[0][0] == r[0];
      }
    }
  }

  /** An `M` word with no number after it reads as NaN, and NaN `!==` -1,
      so the line becomes a tool line (unless a later `M` word decides). */
  lemma DigitlessMForcesTool(pos: Point, line: string, k: int)
    requires 0 <= k < |Parts(line)| && Starts(Parts(line)[k], 'M')
    requires forall j :: k < j < |Parts(line)| ==> !Starts(Parts(line)[j], 'M')
    requires !StartsNumeral(Unsigned(Parts(line)[k][1..]))
    ensures ParseLine(pos, line).kind == Tool
  {
    ParseLineField(pos, line, 'M', k);
    NaNNeverStrictEq(Val(5.0));
    NaNNeverStrictEq(Absent);
  }

  /** A line without a G value of 0, 1, 2 or 3 does not move. */
  lemma NoCodeNoMovement(pos: Point, line: string)
    requires forall k :: 0 <= k < |ParseLine(pos, line).g| ==> !Recognized(ParseLine(pos, line).g[k])
    ensures ParseLine(pos, line).movement == NoMovement
  {
    MotionNone(ParseLine(pos, line).g);
  }
}

=== FILE: types.dfy ===
/**
 The records the parser emits and the classification vocabulary it uses
 (package/gcode-viewer/src/types.ts and the type aliases at the top of
 GCodeParser.ts).
 */
module Types {

  import opened JsNumber

  /** What a line does to the tool: move without cutting, cut, or neither. */
  datatype CommandType = Travel | Tool | Modal

  /** How a line moves: in a straight line, along a clockwise or
      counter-clockwise arc, or not at all. */
  datatype MovementType = Straight | ArcCW | ArcCC | NoMovement

  /** The two kinds a polyline can have: a command type other than Modal. */
  type SegmentType = c: CommandType | !c.Modal? witness Travel

  datatype ArcDirection = CW | CC

  datatype Point = Point(x: Num, y: Num, z: Num)

  /** A polyline of one segment type, numbered by the counter value at which it
      was opened. (`indecies` is the source's spelling.) */
  datatype LineSegment = LineSegment(index: int, lineType: SegmentType, indecies: seq<Point>)

  /** One circular move, numbered like a line segment. */
  datatype ArcSegment = ArcSegment(index: int, direction: ArcDirection, start: Point, center: Point, end: Point)
}
